=== FILE: README.md ===
# Relayer registry and linking — a Dafny model

This project models the IBC relayer core of Starport. The relayer keeps a versioned registry of chains and of the paths between them. The model covers five parts of it:

- **Registry file** (`config.go`): the `Get` version gate, `Save`, and the path and chain lookups.
- **Chains and paths** (`chain.go`):
  - the functional options of chains and channels;
  - `Connect`, which searches for a unique `src-dst`, `src-dst-2`, … path ID and appends an unlinked path;
  - `ensureChainSetup`, which registers a chain or rejects an endpoint conflict.
- **Go driver** (`relayer.go`): `fixRPCAddress`, and the `Link` loop that asks the relay engine to link each unlinked requested path.
- **TypeScript relayer** (`relayer.ts`):
  - `link`, which sorts the requested paths into linked, already-linked and failed buckets;
  - `createLink`, with its balance checks, handshakes and write-back;
  - the `pathById` and `chainById` lookups.
- **Connect command** (`relayer_connect.go`): path selection, the call to `Link`, and the assembly of the list handed to `Start`.

Everything is immutable data and pure functions. External effects are parameters:

- the registry file is the `Config` value itself;
- the chain's status query is an input `Result`;
- the relay engine is the `Engine` record of oracles: gas-price parsing (`gasPriceOk`), balance query, client construction, connection handshake and channel handshake;
- the command's services are the `Service` record: listing, keyring, `Link`, `GetPath` and `Start`.

Files:

| file | module | models |
|---|---|---|
| base.dfy | `Base` | `Option`, `Result` |
| seqs.dfy | `Seqs` | first- and last-match search by key, order-preserving subsequences |
| decimal.dfy | `Decimal` | `%d` rendering of the suffix counter |
| config.dfy | `RelayerConf` | `starport/pkg/relayer/config/config.go` |
| relayer.dfy | `Relayer` | `starport/pkg/relayer/relayer.go` |
| chain.dfy | `Chains` | `starport/pkg/relayer/chain.go` |
| ts_relayer.dfy | `TsRelayer` | `scripts/data/gen-nodetime/src/relayer/lib/relayer.ts` |
| connect_cmd.dfy | `ConnectCommand` | `starport/cmd/relayer_connect.go` |

Where the code and its documentation disagree, the model follows the code:

- **`ensureChainSetup` merge.** A second registration with the same ID and the same RPC address merges the new fields into the range-loop copy `chain`. That copy is never written back, so the saved chain list is the stored one unchanged. No field override is persisted (`Chains.EnsureChainSetup`, `Chains.EnsureChainSetupIdempotent`).
- **Go `Link` with no IDs.** The doc comment says it links every path, but the loop runs only over the given IDs. With none it links nothing (`Relayer.LinkWithoutIdsLinksNothing`).
- **Go `Link` ignores the engine.** It ignores the engine's reply and error. It never writes the registry back, so its result type carries no registry.

## Model

| member | source | states |
|---|---|---|
| RelayerConf.Get | starport/pkg/relayer/config/config.go:56-65 | the never-written registry and one of version "2" load unchanged; any other version is refused as outdated |
| RelayerConf.Save | starport/pkg/relayer/config/config.go:67-70 | the written registry carries version "2" and the same chains and paths |
| RelayerConf.SaveThenGet | starport/pkg/relayer/config/config.go:56-70 | whatever is saved loads back unchanged on the next `Get` |
| Seqs.FirstIndexWith | starport/cmd/relayer_connect.go:46-51 | the first-match search shared by every lookup by ID: the position found has the key and no earlier element does; nothing is found exactly when no element has it |
| RelayerConf.PathIndex | starport/pkg/relayer/config/config.go:21-28 | the position found carries the ID and no earlier path does; nothing is found exactly when the ID is not among the path IDs |
| RelayerConf.PathByID | starport/pkg/relayer/config/config.go:21-28 | returns the first path with the ID; fails, naming the ID, exactly when no path has it |
| RelayerConf.ChainByID | starport/pkg/relayer/relayer.go:70-78 | returns the first chain with the ID; fails, naming the ID, exactly when no chain has it |
| Relayer.FixRpcAddress | starport/pkg/relayer/relayer.go:28-30 | the result is a prefix of the port-normalised address, at most one character shorter, and equal to it exactly when it does not end in "/" |
| Relayer.LinkOne | starport/pkg/relayer/relayer.go:60-79 | an unknown ID is an error; the request is skipped exactly when the path is linked; otherwise one call is made with the registered source and destination chains; a missing source chain is reported first, and a missing destination only when the source is registered |
| Relayer.Run | starport/pkg/relayer/relayer.go:60-85 | no error exactly when every step succeeds; an error is the first failing step's, with every earlier step successful |
| Relayer.RunCalls | starport/pkg/relayer/relayer.go:60-85 | without an error every step's call is made; with one, exactly the calls of the steps before the first failing step are made, and none for it or after it |
| Relayer.LinkAll | starport/pkg/relayer/relayer.go:60-85 | `Link`'s loop ends without error exactly when every request succeeds, making every request's call; otherwise it ends with the first failing request's error, after exactly the calls of the requests before it and none for the failing one |
| Relayer.Link | starport/pkg/relayer/relayer.go:54-86 | an outdated registry is refused before any call; otherwise the loop runs on the loaded registry |
| Relayer.RunAppend | starport/pkg/relayer/relayer.go:60-85 | running two batches one after another is running their concatenation, and the second is ignored once the first fails |
| Relayer.StepsAppend | starport/pkg/relayer/relayer.go:60-83 | the per-request outcomes of a concatenated request are the concatenation of the outcomes |
| Relayer.LinkAllAppend | starport/pkg/relayer/relayer.go:60-85 | the calls of a concatenated request are those of the first part followed by those of the second, unless the first part fails |
| Relayer.LinkAllLinkedIsQuiet | starport/pkg/relayer/relayer.go:51-68 | requests for linked paths make no engine call and no error, so repeating them has no effect |
| Relayer.RunAllCalls | starport/pkg/relayer/relayer.go:60-85 | steps that all carry a call run to completion with exactly those calls, in order |
| Relayer.LinkAllCallsPerRequest | starport/pkg/relayer/relayer.go:60-82 | each resolvable, unlinked request makes exactly one engine call, in request order, with the path's source and destination chains |
| Relayer.LinkWithoutIdsLinksNothing | starport/pkg/relayer/relayer.go:51-60 | with no IDs, `Link` makes no engine call and returns nil |
| Chains.ApplyChainOption | starport/pkg/relayer/chain.go:77-104 | a setter writes its own setting and no other, and never touches the ID, account or RPC address |
| Chains.ApplyChainOptions | starport/pkg/relayer/chain.go:123-126 | applying setters never changes the ID, account or RPC address |
| Chains.ChainSettingAfter | starport/pkg/relayer/chain.go:123-126 | after the setters run, a setting holds the value of its last setter, or its old value when no setter writes it |
| Chains.ChainOptionsLastWins | starport/pkg/relayer/chain.go:123-126 | the last setter of a setting wins; a setting no option writes keeps its value |
| Chains.NewChannelOptions | starport/pkg/relayer/chain.go:163-172 | defaults are port "transfer", version "ics20-1" on both ends, and ORDER_UNORDERED |
| Chains.ApplyChannelOption | starport/pkg/relayer/chain.go:177-210 | a channel setter writes its own setting and no other; `Ordered` writes ORDER_ORDERED |
| Chains.ChannelSettingAfter | starport/pkg/relayer/chain.go:215-219 | after the setters run, a channel setting holds the value of its last setter, or its default |
| Chains.ChannelOptionsLastWins | starport/pkg/relayer/chain.go:215-219 | the last channel setter of a setting wins; unwritten settings keep their defaults |
| Chains.CandidateInjective | starport/pkg/relayer/chain.go:229-239 | distinct guess numbers give distinct path IDs |
| Chains.CandidatesBound | starport/pkg/relayer/chain.go:230-240 | pigeonhole: if the first k-1 guesses are all taken, at least k-1 IDs are in use |
| Chains.FreeIndex | starport/pkg/relayer/chain.go:230-240 | the search stops, at the latest on guess number (IDs in use + 1), at a free guess with every earlier guess taken |
| Chains.Connect | starport/pkg/relayer/chain.go:214-261 | fails exactly on an outdated registry; otherwise picks an ID not in use and appends exactly one unlinked path with the chain IDs and the configured ports, every earlier path kept in order, chains unchanged, version "2" |
| Chains.ConnectPicksLeastFreeGuess | starport/pkg/relayer/chain.go:226-240 | the chosen ID is the least free guess among `src-dst`, `src-dst-2`, …; every earlier guess is in use |
| Chains.ConnectKeepsPathIdsUnique | starport/pkg/relayer/chain.go:229-254 | allocation keeps path IDs pairwise distinct |
| Chains.NextIdFirstFree | starport/pkg/relayer/chain.go:230-240 | with guesses 1..k-1 taken and guess k free, the search settles on guess k |
| Chains.ConnectStep | starport/pkg/relayer/chain.go:214-261 | on a readable registry `Connect` succeeds, adds exactly its new ID to the IDs in use, and leaves a readable registry |
| Chains.ConnectPicksFirstFree | starport/pkg/relayer/chain.go:226-261 | with guesses 1..k-1 taken and guess k free, `Connect` takes guess k and adds exactly that ID |
| Chains.NextIdTwice | starport/pkg/relayer/chain.go:230-240 | with guesses k and k+1 free, the search picks k, and picks k+1 once k is taken |
| Chains.ConnectAgainPicksNextGuess | starport/pkg/relayer/chain.go:226-261 | two allocations in a row between the same chains take consecutive free guesses |
| Chains.NextIdFirstThree | starport/pkg/relayer/chain.go:226-240 | with the first three guesses free, the search yields `base`, `base-2`, `base-3` as each is taken |
| Chains.ConnectNamesInOrder | starport/pkg/relayer/chain.go:226-261 | three allocations between two fresh chains are named `src-dst`, `src-dst-2`, `src-dst-3` |
| Chains.EnsureChainSetup | starport/pkg/relayer/chain.go:264-307 | a status or version error is reported; a stored chain with the ID but another RPC address is a conflict exactly when it is the first with that ID; an unknown ID appends the chain's record at the end; a known ID with the same address saves the chains unchanged; paths are kept and the version is "2" |
| Chains.EnsureChainSetupKeepsChainIdsUnique | starport/pkg/relayer/chain.go:285-306 | registration keeps chain IDs pairwise distinct |
| Chains.EnsureChainSetupIdempotent | starport/pkg/relayer/chain.go:285-306 | registering the same chain again after a success saves the same registry and appends no second record |
| Chains.NewChain | starport/pkg/relayer/chain.go:107-129 | a status error is reported as such; with a status, an outdated registry is reported, a conflict is reported exactly when the first stored chain with the reported network ID has a different RPC address, and otherwise the chain is registered; a registered handle has the reported network ID, the normalised RPC address and the account name; the saved registry is current, keeps every path, and appends the chain when its ID is new or keeps the chain list as it was when the ID is already there |
| Chains.NewChainSettings | starport/pkg/relayer/chain.go:115-126 | each setting of a registered handle is the value of the last option that writes it, or its zero value when none does |
| Decimal.NatToString | starport/pkg/relayer/chain.go:238 | renders a number as a non-empty string of decimal digits that denotes the number and has no leading zero |
| Decimal.NatToStringInjective | starport/pkg/relayer/chain.go:238 | different numbers render differently, because a numeral denotes its number; so suffixes never collide |
| TsRelayer.PathIndex | scripts/data/gen-nodetime/src/relayer/lib/relayer.ts:293-297 | the position found carries the ID and no earlier record does; nothing is found exactly when no record has the ID |
| TsRelayer.PathById | scripts/data/gen-nodetime/src/relayer/lib/relayer.ts:293-297 | the first record with the ID; nothing when the list is absent or no record has it |
| TsRelayer.ChainById | scripts/data/gen-nodetime/src/relayer/lib/relayer.ts:287-291 | nothing when the chain list is absent; a result carries the requested chain ID |
| TsRelayer.ChainByIdIsFirst | scripts/data/gen-nodetime/src/relayer/lib/relayer.ts:287-291 | the result is the first record with the ID, and nothing is found exactly when no record has it |
| TsRelayer.CreateLink | scripts/data/gen-nodetime/src/relayer/lib/relayer.ts:298-376 | reports under the path's own name and keeps every route; a failure changes no record; a link changes only the record found by the path's ID, and marks it linked |
| TsRelayer.CreateLinkRecordsHandshake | scripts/data/gen-nodetime/src/relayer/lib/relayer.ts:341-368 | a link is reported only after both chains, gas prices, balance queries, balances, clients and handshakes succeeded; the record then carries both channel IDs and the connections, and its relaying progress is cleared |
| TsRelayer.CreateLinkFailures | scripts/data/gen-nodetime/src/relayer/lib/relayer.ts:298-376 | a missing first chain, an unparsable first gas price and a failed first balance query are fatal, in that order; a balance shortfall on the first chain is a failure naming it, and any shortfall failure names a chain whose balance falls short; a reported handshake error carries the failing handshake's message; a type error follows a successful connection handshake and means the path has no channel options, or its record is gone from the list after the channel was made; any other fatal error is a missing second chain, or an unparsable gas price, failed balance query or missing client of one of the two chains |
| TsRelayer.BalanceFailureSkipsHandshakes | scripts/data/gen-nodetime/src/relayer/lib/relayer.ts:327-345 | a balance shortfall is reported before any handshake, whatever the handshakes would do, and the records are unchanged |
| TsRelayer.CreateLinkSecondChain | scripts/data/gen-nodetime/src/relayer/lib/relayer.ts:322-343 | once the first chain passes its checks: a missing second chain, its failed balance query and its unparsable gas price are fatal, in that order; a shortfall on it is a failure naming it; then a missing first client, and after it a missing second client, is fatal |
| TsRelayer.CreateLinkSucceeds | scripts/data/gen-nodetime/src/relayer/lib/relayer.ts:344-375 | with both chains ready and funded nothing is thrown: a failed connection handshake is reported with its message; after a connection, missing channel options are a type error and a failed channel handshake is reported with its message; with options and a channel, the record found by the path's ID is marked linked with the channel and connection IDs and the path is reported linked, or the path fails with a type error when no record has that ID |
| TsRelayer.CreateLinkerOk | scripts/data/gen-nodetime/src/relayer/lib/relayer.ts:298-376 | `createLink` has the per-path effect the loop relies on, and throws only a missing-chain, gas-price, balance-query or client error |
| TsRelayer.LinkSteps | scripts/data/gen-nodetime/src/relayer/lib/relayer.ts:169-178 | when the loop completes, every requested name produced either an already-linked entry or a status |
| TsRelayer.Link | scripts/data/gen-nodetime/src/relayer/lib/relayer.ts:157-192 | throws `PathsNotDefined` exactly when there is no path list, and then changes nothing; never changes the chains; keeps every route and every linked record |
| TsRelayer.LinkStepsKeepsRoutes | scripts/data/gen-nodetime/src/relayer/lib/relayer.ts:169-178 | the loop keeps every route and every linked record, even when an exception ends it |
| TsRelayer.LinkStepsFatal | scripts/data/gen-nodetime/src/relayer/lib/relayer.ts:169-178 | the loop ends early only on a requested name no record carries, or on a missing chain, an unparsable gas price, a failed balance query or a client failure |
| TsRelayer.LinkStepsBuckets | scripts/data/gen-nodetime/src/relayer/lib/relayer.ts:169-189 | every requested name lands in exactly one of the three buckets (as multisets), and each bucket keeps request order |
| TsRelayer.LinkStepsLinksReported | scripts/data/gen-nodetime/src/relayer/lib/relayer.ts:169-178 | every name reported as linked or already linked names a linked record afterwards |
| TsRelayer.LinkStepsAllLinked | scripts/data/gen-nodetime/src/relayer/lib/relayer.ts:169-175 | when every requested name is linked, all go to the already-linked bucket and nothing changes |
| TsRelayer.CreateLinkerNeverFatal | scripts/data/gen-nodetime/src/relayer/lib/relayer.ts:298-343 | `createLink` never throws for a record whose chains are registered, have parsable gas prices, answer the balance query and have clients |
| TsRelayer.LinkStepsResolvableSucceeds | scripts/data/gen-nodetime/src/relayer/lib/relayer.ts:169-178 | when every requested path exists and nothing outside `createLink`'s `try` can throw for it, the loop completes: balance shortfalls and handshake errors stay per-path failures |
| TsRelayer.LinkStepsClassifies | scripts/data/gen-nodetime/src/relayer/lib/relayer.ts:169-178 | the first loop reports each requested name whose record was linked beforehand as already linked and never hands it to `createLink`; every other requested name gets a `createLink` status; no unrequested name gets one |
| TsRelayer.CreateLinkerLocal | scripts/data/gen-nodetime/src/relayer/lib/relayer.ts:355 | `createLink` reads the path list only through the lookup of the path's own ID, so two lists in which that lookup finds the same position get the same answer and status |
| TsRelayer.LinkStepsReportsStatus | scripts/data/gen-nodetime/src/relayer/lib/relayer.ts:169-178 | for a name requested once whose record is not linked beforehand, the status `createLink` gives it on the starting list decides its result: a link is among the linked statuses and leaves the record linked, a failure is among the failures with its error and leaves the record unlinked |
| TsRelayer.LinkReportsStatus | scripts/data/gen-nodetime/src/relayer/lib/relayer.ts:157-192 | a name requested once whose record was not linked is in `linkedPaths` exactly when `createLink` on the registry as it was links it, and then its record is linked afterwards; otherwise it is in `failedToLinkPaths` with that failure's error and its record stays unlinked; it is never in two buckets |
| TsRelayer.PartialFailureIsolated | scripts/data/gen-nodetime/src/relayer/lib/relayer.ts:157-192 | with P1 able to link, P2's connection handshake failing with a message and P3 linked already, `link([P1, P2, P3])` returns exactly linked `[P1]`, already linked `[P3]` and failed `[(P2, message)]`, and leaves P1 and P3 linked and P2 unlinked |
| TsRelayer.LinkClassifies | scripts/data/gen-nodetime/src/relayer/lib/relayer.ts:157-192 | a requested name whose record was linked before the call is in the already-linked bucket and in neither other bucket; a name whose record was not linked is in the linked or the failed bucket; only requested names are linked or failed |
| TsRelayer.LinkBuckets | scripts/data/gen-nodetime/src/relayer/lib/relayer.ts:157-192 | `link`'s three buckets partition the request as multisets, each in request order |
| TsRelayer.LinkFatal | scripts/data/gen-nodetime/src/relayer/lib/relayer.ts:157-178 | `link` throws only for a missing path list, a requested name without a record, a missing chain, an unparsable gas price, a failed balance query or a client failure |
| TsRelayer.LinkAllLinkedIsQuiet | scripts/data/gen-nodetime/src/relayer/lib/relayer.ts:169-175 | linking names that are all linked reports them all as already linked and leaves the registry unchanged |
| TsRelayer.LinkAgainIsQuiet | scripts/data/gen-nodetime/src/relayer/lib/relayer.ts:157-192 | linking again the names a successful `link` reported as linked or already linked, with any engine, reports them all as already linked and changes nothing |
| TsRelayer.LinkResolvableSucceeds | scripts/data/gen-nodetime/src/relayer/lib/relayer.ts:157-192 | with a path list and a request whose paths all exist and whose chains are registered, parse their gas prices, answer the balance query and give clients, `link` always returns its three buckets |
| ConnectCommand.SelectByIds | starport/cmd/relayer_connect.go:44-53 | selects no more paths than arguments; each is the first listed path with its ID, which is an argument |
| ConnectCommand.SelectByIdsListedArgs | starport/cmd/relayer_connect.go:44-53 | the selected IDs are exactly the arguments that name a listed path, in argument order, repeats included |
| ConnectCommand.SelectByIdsInOrder | starport/cmd/relayer_connect.go:44-53 | the selected IDs are a subsequence of the arguments |
| ConnectCommand.SelectByIdsCoversListed | starport/cmd/relayer_connect.go:44-53 | every argument that names a listed path is selected |
| ConnectCommand.SelectByIdsAllListed | starport/cmd/relayer_connect.go:44-53 | when every argument is listed, the selected IDs are the arguments, repeats included |
| ConnectCommand.Select | starport/cmd/relayer_connect.go:44-56 | with no arguments every listed path in listing order; otherwise the selection by ID |
| ConnectCommand.FirstGetPathError | starport/cmd/relayer_connect.go:138-144 | no error exactly when every lookup succeeds; otherwise the first failing lookup's error |
| ConnectCommand.Handler | starport/cmd/relayer_connect.go:39-158 | a listing error ends the run; an empty selection returns nil with no call to `Link` or `Start`; a keyring error after a non-empty selection is returned before `Link`; otherwise `Link` is called with exactly the selection and its error is returned before `Start`; nothing to connect returns nil; the first failing `GetPath` error is returned before `Start`; otherwise `Start` gets linked ++ already-linked and its error is returned |
| ConnectCommand.HandlerStartsOnlySelected | starport/cmd/relayer_connect.go:119-158 | with a `Link` that answers each path once, `Start` sees only selected IDs, no more often than selected, and with arguments only argument IDs |
| ConnectCommand.TsLinkPartitionsRequest | starport/cmd/relayer_connect.go:93-96 | the TypeScript `link`, used as the command's `Link`, answers each selected path exactly once |

## Left out

- Registry storage: `confile` loading and saving, YAML, the file path and write errors are not modelled. Storage is the `Config` value itself.
- TypeScript auto-persist: the auto-persisting config proxy of the TypeScript relayer is not modelled as file writes. Every change is visible at once in the returned registry, so `link` returns its registry even when an exception ends it.
- Nil versus empty: nil and empty Go slices are not distinguished. The never-written registry is the empty version with empty sequences.
- Chain status: the chain's status query (`rpchttp`) is an input `Result`. The error of building the Go RPC client (`rpchttp.New`) is not modelled; the TypeScript client failure in `createLink` is modelled (`ClientFailed`).
- `mergo.Merge`: its result lands in the range-loop copy and is discarded, so it is not modelled.
- Engine oracles: the relay engine (`tsrelayer.Call`, IBC clients, `Link.createWithNewConnections`, `createChannel`, wallets) is a record of oracles. They are taken to be pure and deterministic.
- Balance check: `balanceCheck` and `notEnoughBalanceError` compare amounts with float arithmetic on gas prices. The comparison is the `Engine.balance` oracle, which either fails like the balance query or answers whether the funds suffice. Whether `GasPrice.fromString` accepts a gas price is the `Engine.gasPriceOk` oracle. A shortfall records only the chain ID.
- `chainBGP`: the second chain's price for its error text is read from the first chain. This only changes the wording of the message, which is not modelled.
- Long-lived relaying: `start`, `relayPackets`, `Relayer.Start` and their timers are long-lived and concurrent. `Start` is an oracle of the command.
- `xurl.HTTPEnsurePort` is not part of this model, so it is the parameter `ensurePort`.
- `checkBalance` in relayer.go does not compile (an undefined variable, two results from an `error` function), so it is not modelled.
- Go `Link`: `path.Src.ID` is read as `Src.ChainID`, and `ChainByID`, which the registry file does not define, is a first-match lookup like `PathByID`.
- Command plumbing: printing, the spinner, `tabwriter`, the unused `privKeys` closure and the commented key loop are not modelled. The keyring's construction error is the `Service.keyring` field.
- Other code: the cobra wiring in `starport/cmd/relayer.go` and the RPC method table in `index.ts` are not part of this model.
- Chains.FreeIndex: the suffix counter is unbounded. The Go `int` could in principle overflow, but only after about 2^63 IDs in use.
- TsRelayer.LinkSteps: it looks records up by position with `PathIndex` rather than through `PathById`; both return the first record with the ID.
- ConnectCommand.Handler: the `Link` it calls is an oracle with the TypeScript bucket shape, not the Go `Relayer.Link` above, whose signature differs. `TsLinkPartitionsRequest` shows that the TypeScript `link` can serve as that oracle, answering each selected path once.

=== FILE: base.dfy ===
/** Failure-carrying values shared by every module of the relayer model. */
module Base {

  /** A value that may be absent: Go's `nil` pointer results and
      TypeScript's `null`/`undefined`. */
  datatype Option<+T> = None | Some(value: T)

  /** A value or an error: Go's `(T, error)` pairs and thrown exceptions. */
  datatype Result<+T, +E> = Success(value: T) | Failure(error: E)
}

=== FILE: chain.dfy ===
/** Chain registration and path allocation (`starport/pkg/relayer/chain.go`):
    the functional options of chains and channels, `Connect`'s unique path-ID
    search and `ensureChainSetup`'s find/conflict/append logic. The chain's
    live status query is an input; the registry is read and written through
    `Get` and `Save`. */
module Chains {
  import opened Base
  import opened Decimal
  import opened Seqs
  import opened RelayerConf
  import Relayer

  const TransferPort: string := "transfer"
  const TransferVersion: string := "ics20-1"
  const OrderingUnordered: string := "ORDER_UNORDERED"
  const OrderingOrdered: string := "ORDER_ORDERED"

  /** Errors of chain registration and path allocation. */
  datatype ChainError =
    | StatusFailed(message: string)
    | ConfigFailed(cause: ConfigError)
    | EndpointConflict

  // ---------------------------------------------------------------------------
  // Chain options

  /** `chainOptions`: fee and address settings of a chain. */
  datatype ChainOptions = ChainOptions(gasPrice: string, gasLimit: int, addressPrefix: string)

  /** The in-memory `Chain` handle; its RPC client and keyring are not part of
      this model. */
  datatype LocalChain = LocalChain(
    id: string,
    accountName: string,
    rpcAddress: string,
    faucetAddress: string,
    options: ChainOptions)

  /** The `Option` setters `WithFaucet`, `WithGasPrice`, `WithGasLimit` and
      `WithAddressPrefix`. */
  datatype ChainOption =
    | WithFaucet(address: string)
    | WithGasPrice(gasPrice: string)
    | WithGasLimit(limit: int)
    | WithAddressPrefix(addressPrefix: string)

  /** The chain settings an option can write. */
  datatype ChainField = FaucetField | GasPriceField | GasLimitField | AddressPrefixField

  /** A setting's value: text, or the integer gas limit. */
  datatype Setting = Text(text: string) | Number(number: int)

  function ChainFieldOf(o: ChainOption): ChainField {
    match o
    case WithFaucet(_) => FaucetField
    case WithGasPrice(_) => GasPriceField
    case WithGasLimit(_) => GasLimitField
    case WithAddressPrefix(_) => AddressPrefixField
  }

  function ChainSettingOf(o: ChainOption): Setting {
    match o
    case WithFaucet(a) => Text(a)
    case WithGasPrice(p) => Text(p)
    case WithGasLimit(l) => Number(l)
    case WithAddressPrefix(p) => Text(p)
  }

  function ChainSetting(c: LocalChain, f: ChainField): Setting {
    match f
    case FaucetField => Text(c.faucetAddress)
    case GasPriceField => Text(c.options.gasPrice)
    case GasLimitField => Number(c.options.gasLimit)
    case AddressPrefixField => Text(c.options.addressPrefix)
  }

  /** Runs one setter on the chain handle: it writes its own setting and no
      other, and never touches the ID, account or RPC address. */
  function ApplyChainOption(c: LocalChain, o: ChainOption): (r: LocalChain)
    ensures ChainSetting(r, ChainFieldOf(o)) == ChainSettingOf(o)
    ensures forall f :: f != ChainFieldOf(o) ==> ChainSetting(r, f) == ChainSetting(c, f)
    ensures r.id == c.id && r.accountName == c.accountName && r.rpcAddress == c.rpcAddress
  {
    match o
    case WithFaucet(a) => c.(faucetAddress := a)
    case WithGasPrice(p) => c.(options := c.options.(gasPrice := p))
    case WithGasLimit(l) => c.(options := c.options.(gasLimit := l))
    case WithAddressPrefix(p) => c.(options := c.options.(addressPrefix := p))
  }

  /** `for _, o := range options { o(c) }`: setters run left to right. */
  function ApplyChainOptions(c: LocalChain, opts: seq<ChainOption>): (r: LocalChain)
    ensures r.id == c.id && r.accountName == c.accountName && r.rpcAddress == c.rpcAddress
    decreases |opts|
  {
    if |opts| == 0 then c else ApplyChainOptions(ApplyChainOption(c, opts[0]), opts[1..])
  }

  /** A setting after the setters ran is the value of its last setter, or
      its old value when no setter writes it. */
  lemma {:induction false} ChainSettingAfter(c: LocalChain, opts: seq<ChainOption>, f: ChainField)
    ensures ChainSetting(ApplyChainOptions(c, opts), f) ==
      match LastIndexWith(opts, ChainFieldOf, f)
      case None => ChainSetting(c, f)
      case Some(i) => ChainSettingOf(opts[i])
    decreases |opts|
  {
    if |opts| != 0 {
      ChainSettingAfter(ApplyChainOption(c, opts[0]), opts[1..], f);
      match LastIndexWith(opts[1..], ChainFieldOf, f)
      case None =>
      case Some(i) => assert opts[1..][i] == opts[i + 1];
    }
  }

  /** The last setter of a setting wins; a setting no option writes keeps its
      value. */
  lemma ChainOptionsLastWins(c: LocalChain, opts: seq<ChainOption>, f: ChainField)
    ensures (forall i :: 0 <= i < |opts| ==> ChainFieldOf(opts[i]) != f) ==>
      ChainSetting(ApplyChainOptions(c, opts), f) == ChainSetting(c, f)
    ensures forall i :: 0 <= i < |opts| && ChainFieldOf(opts[i]) == f
                        && (forall j :: i < j < |opts| ==> ChainFieldOf(opts[j]) != f) ==>
      ChainSetting(ApplyChainOptions(c, opts), f) == ChainSettingOf(opts[i])
  {
    ChainSettingAfter(c, opts, f);
    forall i | 0 <= i < |opts| && ChainFieldOf(opts[i]) == f
               && (forall j :: i < j < |opts| ==> ChainFieldOf(opts[j]) != f)
      ensures ChainSetting(ApplyChainOptions(c, opts), f) == ChainSettingOf(opts[i])
    {
      LastIndexWithUnique(opts, ChainFieldOf, f, i);
    }
  }

  // ---------------------------------------------------------------------------
  // Channel options

  /** `channelOptions`: ports, versions and ordering of a new channel. */
  datatype ChannelOptions = ChannelOptions(
    sourcePort: string,
    sourceVersion: string,
    targetPort: string,
    targetVersion: string,
    ordering: string)

  /** The `ChannelOption` setters `SourcePort`, `TargetPort`, `SourceVersion`,
      `TargetVersion` and `Ordered`. */
  datatype ChannelOption =
    | SourcePort(port: string)
    | TargetPort(port: string)
    | SourceVersion(version: string)
    | TargetVersion(version: string)
    | Ordered

  /** The channel settings an option can write. */
  datatype ChannelField =
    SourcePortField | SourceVersionField | TargetPortField | TargetVersionField | OrderingField

  function ChannelFieldOf(o: ChannelOption): ChannelField {
    match o
    case SourcePort(_) => SourcePortField
    case TargetPort(_) => TargetPortField
    case SourceVersion(_) => SourceVersionField
    case TargetVersion(_) => TargetVersionField
    case Ordered => OrderingField
  }

  /** The value an option writes; `Ordered` writes the ordered channel kind. */
  function ChannelValueOf(o: ChannelOption): string {
    match o
    case SourcePort(p) => p
    case TargetPort(p) => p
    case SourceVersion(v) => v
    case TargetVersion(v) => v
    case Ordered => OrderingOrdered
  }

  function ChannelSetting(c: ChannelOptions, f: ChannelField): string {
    match f
    case SourcePortField => c.sourcePort
    case SourceVersionField => c.sourceVersion
    case TargetPortField => c.targetPort
    case TargetVersionField => c.targetVersion
    case OrderingField => c.ordering
  }

  /** `newChannelOptions`: an unordered ICS-20 transfer channel. */
  function NewChannelOptions(): (r: ChannelOptions)
    ensures r.sourcePort == TransferPort && r.targetPort == TransferPort
    ensures r.sourceVersion == TransferVersion && r.targetVersion == TransferVersion
    ensures r.ordering == OrderingUnordered
  {
    ChannelOptions(TransferPort, TransferVersion, TransferPort, TransferVersion, OrderingUnordered)
  }

  /** Runs one channel setter: it writes its own setting and no other. */
  function ApplyChannelOption(c: ChannelOptions, o: ChannelOption): (r: ChannelOptions)
    ensures ChannelSetting(r, ChannelFieldOf(o)) == ChannelValueOf(o)
    ensures forall f :: f != ChannelFieldOf(o) ==> ChannelSetting(r, f) == ChannelSetting(c, f)
  {
    match o
    case SourcePort(p) => c.(sourcePort := p)
    case TargetPort(p) => c.(targetPort := p)
    case SourceVersion(v) => c.(sourceVersion := v)
    case TargetVersion(v) => c.(targetVersion := v)
    case Ordered => c.(ordering := OrderingOrdered)
  }

  /** `for _, apply := range options { apply(&channelOptions) }`. */
  function ApplyChannelOptions(c: ChannelOptions, opts: seq<ChannelOption>): ChannelOptions
    decreases |opts|
  {
    if |opts| == 0 then c else ApplyChannelOptions(ApplyChannelOption(c, opts[0]), opts[1..])
  }

  /** A channel setting after the setters ran is the value of its last
      setter, or its default when no setter writes it. */
  lemma {:induction false} ChannelSettingAfter(c: ChannelOptions, opts: seq<ChannelOption>, f: ChannelField)
    ensures ChannelSetting(ApplyChannelOptions(c, opts), f) ==
      match LastIndexWith(opts, ChannelFieldOf, f)
      case None => ChannelSetting(c, f)
      case Some(i) => ChannelValueOf(opts[i])
    decreases |opts|
  {
    if |opts| != 0 {
      ChannelSettingAfter(ApplyChannelOption(c, opts[0]), opts[1..], f);
      match LastIndexWith(opts[1..], ChannelFieldOf, f)
      case None =>
      case Some(i) => assert opts[1..][i] == opts[i + 1];
    }
  }

  /** The last setter of a channel setting wins; a setting no option writes
      keeps its default. */
  lemma ChannelOptionsLastWins(c: ChannelOptions, opts: seq<ChannelOption>, f: ChannelField)
    ensures (forall i :: 0 <= i < |opts| ==> ChannelFieldOf(opts[i]) != f) ==>
      ChannelSetting(ApplyChannelOptions(c, opts), f) == ChannelSetting(c, f)
    ensures forall i :: 0 <= i < |opts| && ChannelFieldOf(opts[i]) == f
                        && (forall j :: i < j < |opts| ==> ChannelFieldOf(opts[j]) != f) ==>
      ChannelSetting(ApplyChannelOptions(c, opts), f) == ChannelValueOf(opts[i])
  {
    ChannelSettingAfter(c, opts, f);
    forall i | 0 <= i < |opts| && ChannelFieldOf(opts[i]) == f
               && (forall j :: i < j < |opts| ==> ChannelFieldOf(opts[j]) != f)
      ensures ChannelSetting(ApplyChannelOptions(c, opts), f) == ChannelValueOf(opts[i])
    {
      LastIndexWithUnique(opts, ChannelFieldOf, f, i);
    }
  }

  // ---------------------------------------------------------------------------
  // Path allocation

  /** The `k`-th path-ID guess of `Connect` for the base `src-dst`: the base
      itself, then `base-2`, `base-3`, ... */
  function Candidate(base: string, k: nat): string
    requires k >= 1
  {
    if k == 1 then base else base + "-" + NatToString(k)
  }

  /** Different guesses are different IDs. */
  lemma CandidateInjective(base: string, j: nat, k: nat)
    requires j >= 1 && k >= 1
    ensures Candidate(base, j) == Candidate(base, k) ==> j == k
  {
    if j != 1 && k != 1 && Candidate(base, j) == Candidate(base, k) {
      var p := base + "-";
      assert Candidate(base, j)[|p|..] == NatToString(j);
      assert Candidate(base, k)[|p|..] == NatToString(k);
      NatToStringInjective(j, k);
    }
  }

  /** Pigeonhole: the first `k - 1` guesses are distinct, so if all of them are
      in use there are at least `k - 1` IDs in use. */
  lemma {:induction false} CandidatesBound(base: string, k: nat, used: set<string>)
    requires k >= 1
    requires forall j :: 1 <= j < k ==> Candidate(base, j) in used
    ensures k - 1 <= |used|
    decreases k
  {
    if k > 1 {
      var last := Candidate(base, k - 1);
      var rest := used - {last};
      forall j | 1 <= j < k - 1
        ensures Candidate(base, j) in rest
      {
        CandidateInjective(base, j, k - 1);
      }
      CandidatesBound(base, k - 1, rest);
    }
  }

  /** The search loop of `Connect`, from guess `k` on: it stops at the first
      guess not in use, which the pigeonhole bound shows exists no later than
      guess `|used| + 1`. */
  function FreeIndex(used: set<string>, base: string, k: nat): (r: nat)
    requires k >= 1
    requires forall j :: 1 <= j < k ==> Candidate(base, j) in used
    ensures k <= r <= |used| + 1
    ensures Candidate(base, r) !in used
    ensures forall j :: 1 <= j < r ==> Candidate(base, j) in used
    decreases |used| + 1 - k
  {
    CandidatesBound(base, k, used);
    if Candidate(base, k) !in used then k
    else
      CandidatesBound(base, k + 1, used);
      FreeIndex(used, base, k + 1)
  }

  /** The result of `Connect`: the new path's ID and the registry it saved. */
  datatype Allocation = Allocation(pathId: string, saved: Config)

  /** A freshly allocated, unlinked path between `srcChainId` and `dstChainId`. */
  function NewPath(id: string, srcChainId: string, dstChainId: string, opts: ChannelOptions): Path {
    Path(id, "",
      PathEnd(srcChainId, "", "", opts.sourcePort, "", 0, 0),
      PathEnd(dstChainId, "", "", opts.targetPort, "", 0, 0))
  }

  /** `Connect`: allocates the least unused ID among `src-dst`, `src-dst-2`,
      `src-dst-3`, ... and appends an unlinked path under it. */
  function Connect(stored: Config, c: LocalChain, dst: LocalChain, options: seq<ChannelOption>)
    : (r: Result<Allocation, ConfigError>)
    ensures r.Failure? <==> !Readable(stored)
    ensures r.Failure? ==> r.error == Outdated
    ensures r.Success? ==> r.value.pathId !in PathIds(stored.paths)
    ensures r.Success? ==>
      var saved := r.value.saved;
      && saved.version == SupportVersion
      && saved.chains == stored.chains
      && |saved.paths| == |stored.paths| + 1
      && saved.paths[..|stored.paths|] == stored.paths
    ensures r.Success? ==>
      var p := r.value.saved.paths[|stored.paths|];
      var opts := ApplyChannelOptions(NewChannelOptions(), options);
      && p.id == r.value.pathId && p.ordering == ""
      && p.src == PathEnd(c.id, "", "", opts.sourcePort, "", 0, 0)
      && p.dst == PathEnd(dst.id, "", "", opts.targetPort, "", 0, 0)
  {
    var opts := ApplyChannelOptions(NewChannelOptions(), options);
    match Get(stored)
    case Failure(e) => Failure(e)
    case Success(conf) =>
      var base := c.id + "-" + dst.id;
      var k := FreeIndex(PathIds(conf.paths), base, 1);
      var id := Candidate(base, k);
      var saved := Save(conf.(paths := conf.paths + [NewPath(id, c.id, dst.id, opts)]));
      assert saved.paths[..|conf.paths|] == conf.paths;
      Success(Allocation(id, saved))
  }

  /** The ID `Connect` picks is `src-dst` when that is free, and otherwise
      `src-dst-k` for the least `k >= 2` whose guess is free: every earlier
      guess is in use. */
  lemma ConnectPicksLeastFreeGuess(stored: Config, c: LocalChain, dst: LocalChain, options: seq<ChannelOption>)
    requires Connect(stored, c, dst, options).Success?
    ensures exists k :: k >= 1 && Connect(stored, c, dst, options).value.pathId == Candidate(c.id + "-" + dst.id, k)
                        && forall j :: 1 <= j < k ==> Candidate(c.id + "-" + dst.id, j) in PathIds(stored.paths)
  {
    var k := FreeIndex(PathIds(stored.paths), c.id + "-" + dst.id, 1);
    assert Connect(stored, c, dst, options).value.pathId == Candidate(c.id + "-" + dst.id, k);
  }

  /** Allocation keeps path IDs unique. */
  lemma ConnectKeepsPathIdsUnique(stored: Config, c: LocalChain, dst: LocalChain, options: seq<ChannelOption>)
    requires UniquePathIds(stored.paths)
    requires Connect(stored, c, dst, options).Success?
    ensures UniquePathIds(Connect(stored, c, dst, options).value.saved.paths)
  {
    var r := Connect(stored, c, dst, options).value;
    var n := |stored.paths|;
    forall i, j | 0 <= i < j < |r.saved.paths|
      ensures r.saved.paths[i].id != r.saved.paths[j].id
    {
      assert r.saved.paths[i] == stored.paths[i];
      if j < n {
        assert r.saved.paths[j] == stored.paths[j];
      } else {
        assert stored.paths[i].id in PathIds(stored.paths);
      }
    }
  }

  /** The ID the search settles on for the IDs in use `used`. */
  function NextId(used: set<string>, base: string): string {
    Candidate(base, FreeIndex(used, base, 1))
  }

  /** When guesses `1 .. k - 1` are in use and guess `k` is free, the search
      settles on guess `k`. */
  lemma NextIdFirstFree(used: set<string>, base: string, k: nat)
    requires k >= 1
    requires forall j :: 1 <= j < k ==> Candidate(base, j) in used
    requires Candidate(base, k) !in used
    ensures NextId(used, base) == Candidate(base, k)
  {
    var r := FreeIndex(used, base, 1);
  }

  /** One allocation seen through the IDs in use: `Connect` on a readable
      registry picks the search's ID and adds exactly that ID. */
  lemma ConnectStep(stored: Config, c: LocalChain, dst: LocalChain, options: seq<ChannelOption>)
    requires Readable(stored)
    ensures var r := Connect(stored, c, dst, options);
      && r.Success?
      && r.value.pathId == NextId(PathIds(stored.paths), c.id + "-" + dst.id)
      && PathIds(r.value.saved.paths) == PathIds(stored.paths) + {r.value.pathId}
      && Readable(r.value.saved)
  {
    var r := Connect(stored, c, dst, options).value;
    var n := |stored.paths|;
    assert r.saved.paths == stored.paths + [r.saved.paths[n]];
  }

  /** When guesses `1 .. k - 1` are taken and guess `k` is free, `Connect`
      picks guess `k`, and the registry it saves has exactly that ID more. */
  lemma ConnectPicksFirstFree(stored: Config, c: LocalChain, dst: LocalChain, options: seq<ChannelOption>, k: nat)
    requires Readable(stored) && k >= 1
    requires forall j :: 1 <= j < k ==> Candidate(c.id + "-" + dst.id, j) in PathIds(stored.paths)
    requires Candidate(c.id + "-" + dst.id, k) !in PathIds(stored.paths)
    ensures var r := Connect(stored, c, dst, options);
      && r.Success?
      && r.value.pathId == Candidate(c.id + "-" + dst.id, k)
      && PathIds(r.value.saved.paths) == PathIds(stored.paths) + {Candidate(c.id + "-" + dst.id, k)}
      && Readable(r.value.saved)
  {
    ConnectStep(stored, c, dst, options);
    NextIdFirstFree(PathIds(stored.paths), c.id + "-" + dst.id, k);
  }

  /** When guesses `k` and `k + 1` are both free and every earlier guess is
      in use, the search settles on guess `k`, and once that is taken, on
      guess `k + 1`. */
  lemma NextIdTwice(used: set<string>, base: string, k: nat)
    requires k >= 1
    requires forall j :: 1 <= j < k ==> Candidate(base, j) in used
    requires Candidate(base, k) !in used && Candidate(base, k + 1) !in used
    ensures NextId(used, base) == Candidate(base, k)
    ensures NextId(used + {Candidate(base, k)}, base) == Candidate(base, k + 1)
  {
    NextIdFirstFree(used, base, k);
    var used1 := used + {Candidate(base, k)};
    forall j | 1 <= j < k + 1
      ensures Candidate(base, j) in used1
    {
    }
    CandidateInjective(base, k, k + 1);
    NextIdFirstFree(used1, base, k + 1);
  }

  /** Two allocations in a row between the same chains take consecutive
      guesses when both are free. */
  lemma ConnectAgainPicksNextGuess(stored: Config, c: LocalChain, dst: LocalChain, options: seq<ChannelOption>, k: nat)
    requires Readable(stored) && k >= 1
    requires forall j :: 1 <= j < k ==> Candidate(c.id + "-" + dst.id, j) in PathIds(stored.paths)
    requires Candidate(c.id + "-" + dst.id, k) !in PathIds(stored.paths)
    requires Candidate(c.id + "-" + dst.id, k + 1) !in PathIds(stored.paths)
    ensures var r1 := Connect(stored, c, dst, options);
      && r1.Success? && r1.value.pathId == Candidate(c.id + "-" + dst.id, k)
      && var r2 := Connect(r1.value.saved, c, dst, options);
      && r2.Success? && r2.value.pathId == Candidate(c.id + "-" + dst.id, k + 1)
      && PathIds(r2.value.saved.paths) == PathIds(stored.paths) + {Candidate(c.id + "-" + dst.id, k), Candidate(c.id + "-" + dst.id, k + 1)}
  {
    var base := c.id + "-" + dst.id;
    NextIdTwice(PathIds(stored.paths), base, k);
    ConnectStep(stored, c, dst, options);
    ConnectStep(Connect(stored, c, dst, options).value.saved, c, dst, options);
  }

  /** With the first three guesses free, the search settles on them in turn
      as each is taken. */
  lemma NextIdFirstThree(used: set<string>, base: string)
    requires forall k :: 1 <= k <= 3 ==> Candidate(base, k) !in used
    ensures NextId(used, base) == base
    ensures NextId(used + {base}, base) == base + "-2"
    ensures NextId(used + {base} + {base + "-2"}, base) == base + "-3"
  {
    assert Candidate(base, 2) == base + "-2" && Candidate(base, 3) == base + "-3" by {
      assert NatToString(2) == "2" && NatToString(3) == "3";
    }
    NextIdTwice(used, base, 1);
    var used2 := used + {base} + {base + "-2"};
    CandidateInjective(base, 1, 3);
    CandidateInjective(base, 2, 3);
    forall j | 1 <= j < 3
      ensures Candidate(base, j) in used2
    {
    }
    NextIdFirstFree(used2, base, 3);
  }

  /** The first three allocations between two chains whose guesses are all
      free are named `src-dst`, `src-dst-2` and `src-dst-3`. */
  lemma ConnectNamesInOrder(stored: Config, c: LocalChain, dst: LocalChain, options: seq<ChannelOption>)
    requires Readable(stored)
    requires forall k :: 1 <= k <= 3 ==> Candidate(c.id + "-" + dst.id, k) !in PathIds(stored.paths)
    ensures var r1 := Connect(stored, c, dst, options);
      && r1.Success? && r1.value.pathId == c.id + "-" + dst.id
      && var r2 := Connect(r1.value.saved, c, dst, options);
      && r2.Success? && r2.value.pathId == c.id + "-" + dst.id + "-2"
      && var r3 := Connect(r2.value.saved, c, dst, options);
      && r3.Success? && r3.value.pathId == c.id + "-" + dst.id + "-3"
  {
    NextIdFirstThree(PathIds(stored.paths), c.id + "-" + dst.id);
    ConnectStep(stored, c, dst, options);
    var s1 := Connect(stored, c, dst, options).value.saved;
    ConnectStep(s1, c, dst, options);
    var s2 := Connect(s1, c, dst, options).value.saved;
    ConnectStep(s2, c, dst, options);
  }

  // ---------------------------------------------------------------------------
  // Chain registration

  /** The registry record of a chain handle. */
  function ChainRecord(c: LocalChain): Chain {
    Chain(c.id, c.accountName, c.options.addressPrefix, c.rpcAddress, c.options.gasPrice, c.options.gasLimit)
  }

  /** The outcome of `NewChain`: the chain handle with its network ID, and the
      registry it saved. */
  datatype Registration = Registration(chain: LocalChain, saved: Config)

  /** The first stored chain carrying `id` has an RPC address other than
      `rpcAddress`. */
  predicate ConflictsWith(chains: seq<Chain>, id: string, rpcAddress: string) {
    exists i :: 0 <= i < |chains| && chains[i].id == id && chains[i].rpcAddress != rpcAddress
                && forall j :: 0 <= j < i ==> chains[j].id != id
  }

  /** `ensureChainSetup`: takes the chain's network ID from the status query
      (`status`), then registers the chain unless a stored chain with that ID
      has another RPC address. A match with the same address is merged into a
      copy of the loop variable only, so the stored chains are saved as they
      were. */
  function EnsureChainSetup(stored: Config, status: Result<string, string>, c: LocalChain)
    : (r: Result<Registration, ChainError>)
    ensures status.Failure? ==> r == Failure(StatusFailed(status.error))
    ensures status.Success? && !Readable(stored) ==> r == Failure(ConfigFailed(Outdated))
    ensures r.Success? ==> r.value.chain == c.(id := status.value)
    ensures r.Success? ==> r.value.saved.version == SupportVersion && r.value.saved.paths == stored.paths
    ensures status.Success? && Readable(stored) ==>
      (r == Failure(EndpointConflict) <==> ConflictsWith(stored.chains, status.value, c.rpcAddress))
    ensures status.Success? && Readable(stored) && (forall i :: 0 <= i < |stored.chains| ==> stored.chains[i].id != status.value) ==>
      r.Success? && r.value.saved.chains == stored.chains + [ChainRecord(c.(id := status.value))]
    ensures status.Success? && Readable(stored) && (exists i :: 0 <= i < |stored.chains| && stored.chains[i].id == status.value) ==>
      r.Success? || r == Failure(EndpointConflict)
    ensures r.Success? && (exists i :: 0 <= i < |stored.chains| && stored.chains[i].id == status.value) ==>
      r.value.saved.chains == stored.chains
  {
    match status
    case Failure(message) => Failure(StatusFailed(message))
    case Success(network) =>
      var chain := c.(id := network);
      match Get(stored)
      case Failure(e) => Failure(ConfigFailed(e))
      case Success(conf) =>
        match ChainByID(conf, network)
        case Success(found) =>
          if found.rpcAddress != chain.rpcAddress then Failure(EndpointConflict)
          else Success(Registration(chain, Save(conf)))
        case Failure(_) =>
          Success(Registration(chain, Save(conf.(chains := conf.chains + [ChainRecord(chain)]))))
  }

  /** Registration keeps chain IDs unique. */
  lemma EnsureChainSetupKeepsChainIdsUnique(stored: Config, status: Result<string, string>, c: LocalChain)
    requires UniqueChainIds(stored.chains)
    requires EnsureChainSetup(stored, status, c).Success?
    ensures UniqueChainIds(EnsureChainSetup(stored, status, c).value.saved.chains)
  {
    var saved := EnsureChainSetup(stored, status, c).value.saved;
    if saved.chains != stored.chains {
      var n := |stored.chains|;
      forall i, j | 0 <= i < j < |saved.chains|
        ensures saved.chains[i].id != saved.chains[j].id
      {
        assert saved.chains[i] == stored.chains[i];
        if j < n {
          assert saved.chains[j] == stored.chains[j];
        }
      }
    }
  }

  /** Registering the same chain again with the same address changes nothing:
      no second record is appended and the saved registry is the same. */
  lemma EnsureChainSetupIdempotent(stored: Config, status: Result<string, string>, c: LocalChain)
    requires EnsureChainSetup(stored, status, c).Success?
    ensures var first := EnsureChainSetup(stored, status, c).value;
      EnsureChainSetup(first.saved, status, c) == Success(first)
  {
    var first := EnsureChainSetup(stored, status, c).value;
    var id := status.value;
    SaveThenGet(stored);
    if forall i :: 0 <= i < |stored.chains| ==> stored.chains[i].id != id {
      var n := |stored.chains|;
      assert first.saved.chains[n] == ChainRecord(c.(id := id));
      assert ChainIndex(first.saved.chains, id) == Some(n);
    } else {
      assert ChainIndex(stored.chains, id) == ChainIndex(first.saved.chains, id);
    }
  }

  /** `NewChain`: normalises the RPC address, applies the options to a fresh
      handle and sets the chain up. */
  function NewChain(
    stored: Config,
    ensurePort: string -> string,
    accountName: string,
    rpcAddress: string,
    options: seq<ChainOption>,
    status: Result<string, string>)
    : (r: Result<Registration, ChainError>)
    ensures status.Failure? ==> r == Failure(StatusFailed(status.error))
    ensures r.Success? ==>
      && status.Success?
      && r.value.chain.id == status.value
      && r.value.chain.rpcAddress == Relayer.FixRpcAddress(ensurePort, rpcAddress)
      && r.value.chain.accountName == accountName
    // the setup's errors pass through: an outdated registry, or a stored
    // chain with the network ID and another address
    ensures status.Success? && !Readable(stored) ==> r == Failure(ConfigFailed(Outdated))
    ensures status.Success? && Readable(stored) ==>
      (r == Failure(EndpointConflict) <==> ConflictsWith(stored.chains, status.value, Relayer.FixRpcAddress(ensurePort, rpcAddress)))
    // otherwise the chain is registered
    ensures status.Success? && Readable(stored) && !ConflictsWith(stored.chains, status.value, Relayer.FixRpcAddress(ensurePort, rpcAddress)) ==>
      r.Success?
    // what is saved: the stored paths, version "2", and the chain's record
    // appended exactly when no stored chain has its network ID
    ensures r.Success? ==> r.value.saved.version == SupportVersion && r.value.saved.paths == stored.paths
    ensures r.Success? && (forall i :: 0 <= i < |stored.chains| ==> stored.chains[i].id != status.value) ==>
      r.value.saved.chains == stored.chains + [ChainRecord(r.value.chain)]
    ensures r.Success? && (exists i :: 0 <= i < |stored.chains| && stored.chains[i].id == status.value) ==>
      r.value.saved.chains == stored.chains
  {
    var handle := LocalChain("", accountName, Relayer.FixRpcAddress(ensurePort, rpcAddress), "", ChainOptions("", 0, ""));
    EnsureChainSetup(stored, status, ApplyChainOptions(handle, options))
  }

  /** The value a setting has on a fresh handle, before any option ran. */
  function UnsetSetting(f: ChainField): Setting {
    if f == GasLimitField then Number(0) else Text("")
  }

  /** Each setting of a registered handle is the value of the last option
      that writes it, or its zero value when no option does. */
  lemma NewChainSettings(
    stored: Config,
    ensurePort: string -> string,
    accountName: string,
    rpcAddress: string,
    options: seq<ChainOption>,
    status: Result<string, string>,
    f: ChainField)
    requires NewChain(stored, ensurePort, accountName, rpcAddress, options, status).Success?
    ensures ChainSetting(NewChain(stored, ensurePort, accountName, rpcAddress, options, status).value.chain, f) ==
      match LastIndexWith(options, ChainFieldOf, f)
      case None => UnsetSetting(f)
      case Some(i) => ChainSettingOf(options[i])
  {
    var handle := LocalChain("", accountName, Relayer.FixRpcAddress(ensurePort, rpcAddress), "", ChainOptions("", 0, ""));
    ChainSettingAfter(handle, options, f);
  }
}

=== FILE: config.dfy ===
/** The relayer's persisted registry (`starport/pkg/relayer/config/config.go`):
    a versioned aggregate of chains and paths, with storage taken to be the
    identity on the `Config` value. */
module RelayerConf {
  import opened Base
  import opened Seqs

  /** The only registry layout this version of the relayer reads. */
  const SupportVersion: string := "2"

  /** A registered chain endpoint. `gasLimit` is a Go `int64`; it is only
      copied, never computed with, so it is kept as an `int`. */
  datatype Chain = Chain(
    id: string,
    account: string,
    addressPrefix: string,
    rpcAddress: string,
    gasPrice: string,
    gasLimit: int)

  /** One side of a path; a non-empty `channelId` means the side is linked. */
  datatype PathEnd = PathEnd(
    chainId: string,
    connectionId: string,
    channelId: string,
    portId: string,
    version: string,
    packetHeight: int,
    ackHeight: int)

  /** A relay route between two chains. */
  datatype Path = Path(id: string, ordering: string, src: PathEnd, dst: PathEnd)

  datatype Config = Config(version: string, chains: seq<Chain>, paths: seq<Path>)

  /** Errors reported while reading the registry. */
  datatype ConfigError =
    | Outdated
    | PathNotFound(pathId: string)
    | ChainNotFound(chainId: string)

  /** What a never-written registry file decodes to. */
  const ZeroConfig: Config := Config("", [], [])

  /** The version gate of `Get`: an untouched registry or one written in the
      supported layout is accepted. */
  predicate Readable(c: Config) {
    c == ZeroConfig || c.version == SupportVersion
  }

  /** `Get`: loads the stored registry and refuses an outdated layout. */
  function Get(stored: Config): (r: Result<Config, ConfigError>)
    ensures r.Success? ==> r.value == stored
    ensures r.Failure? ==> r.error == Outdated
    ensures stored == ZeroConfig ==> r == Success(stored)
    ensures stored.version == SupportVersion ==> r == Success(stored)
    ensures stored != ZeroConfig && stored.version != SupportVersion ==> r == Failure(Outdated)
  {
    if !Readable(stored) then Failure(Outdated) else Success(stored)
  }

  /** `Save`: what is written is the registry stamped with the supported
      version. */
  function Save(c: Config): (r: Config)
    ensures r.version == SupportVersion
    ensures r.chains == c.chains && r.paths == c.paths
  {
    c.(version := SupportVersion)
  }

  /** Whatever was saved passes the version gate on the next load. */
  lemma SaveThenGet(c: Config)
    ensures Get(Save(c)) == Success(Save(c))
  {
  }

  /** Every path ID in `paths`. */
  function PathIds(paths: seq<Path>): set<string> {
    set p | p in paths :: p.id
  }

  /** Path IDs are pairwise distinct. */
  predicate UniquePathIds(paths: seq<Path>) {
    forall i, j :: 0 <= i < j < |paths| ==> paths[i].id != paths[j].id
  }

  /** Chain IDs are pairwise distinct. */
  predicate UniqueChainIds(chains: seq<Chain>) {
    forall i, j :: 0 <= i < j < |chains| ==> chains[i].id != chains[j].id
  }

  function PathId(p: Path): string { p.id }

  function ChainId(c: Chain): string { c.id }

  /** Position of the first path carrying `id`. */
  function PathIndex(paths: seq<Path>, id: string): (r: Option<nat>)
    ensures r.Some? ==> r.value < |paths| && paths[r.value].id == id
    ensures r.Some? ==> forall j :: 0 <= j < r.value ==> paths[j].id != id
    ensures r.None? <==> id !in PathIds(paths)
  {
    FirstIndexWith(paths, PathId, id)
  }

  /** Position of the first chain carrying `id`. */
  function ChainIndex(chains: seq<Chain>, id: string): (r: Option<nat>)
    ensures r.Some? ==> r.value < |chains| && chains[r.value].id == id
    ensures r.Some? ==> forall j :: 0 <= j < r.value ==> chains[j].id != id
    ensures r.None? <==> forall j :: 0 <= j < |chains| ==> chains[j].id != id
  {
    FirstIndexWith(chains, ChainId, id)
  }

  /** `PathByID`: the first path carrying `id`, an error when none does. */
  function PathByID(c: Config, id: string): (r: Result<Path, ConfigError>)
    ensures r.Success? ==> exists i :: 0 <= i < |c.paths| && c.paths[i] == r.value
                                     && forall j :: 0 <= j < i ==> c.paths[j].id != id
    ensures r.Success? ==> r.value.id == id
    ensures r.Failure? <==> id !in PathIds(c.paths)
    ensures r.Failure? ==> r.error == PathNotFound(id)
  {
    match PathIndex(c.paths, id)
    case Some(i) => Success(c.paths[i])
    case None => Failure(PathNotFound(id))
  }

  /** `ChainByID` is not part of the shown registry file; it is read as the
      first-match lookup analogous to `PathByID`. */
  function ChainByID(c: Config, id: string): (r: Result<Chain, ConfigError>)
    ensures r.Success? ==> exists i :: 0 <= i < |c.chains| && c.chains[i] == r.value
                                     && forall j :: 0 <= j < i ==> c.chains[j].id != id
    ensures r.Success? ==> r.value.id == id
    ensures r.Failure? <==> forall i :: 0 <= i < |c.chains| ==> c.chains[i].id != id
    ensures r.Failure? ==> r.error == ChainNotFound(id)
  {
    match ChainIndex(c.chains, id)
    case Some(i) => Success(c.chains[i])
    case None => Failure(ChainNotFound(id))
  }
}

=== FILE: connect_cmd.dfy ===
/** The `relayer connect` command handler
    (`starport/cmd/relayer_connect.go`): it selects the paths to link from
    the listing, links them, and starts relaying on the paths that ended up
    linked. The calls into the relayer service are oracles of a `Service`;
    the handler's observable behaviour is which calls it makes with which
    arguments, and the error it returns. */
module ConnectCommand {
  import opened Base
  import opened Seqs
  import TsRelayer

  /** `relayer.PathEnd` as the listing reports it. */
  datatype CliEnd = CliEnd(channelId: string, chainId: string, portId: string)

  /** `relayer.Path` as the listing reports it. */
  datatype CliPath = CliPath(id: string, isLinked: bool, src: CliEnd, dst: CliEnd)

  /** The IDs of a list of paths, in order. */
  function Ids(ps: seq<CliPath>): (r: seq<string>)
    ensures |r| == |ps| && forall i :: 0 <= i < |ps| ==> r[i] == ps[i].id
  {
    if |ps| == 0 then [] else [ps[0].id] + Ids(ps[1..])
  }

  function CliPathId(p: CliPath): string { p.id }

  /** Position of the first listed path with that ID, if any: the inner
      loop of the selection, which stops at the first match. */
  function FirstIndex(all: seq<CliPath>, id: string): Option<nat> {
    FirstIndexWith(all, CliPathId, id)
  }

  /** Some listed path has that ID. */
  predicate Listed(all: seq<CliPath>, id: string) {
    FirstIndex(all, id).Some?
  }

  /** `p` is the first listed path with its ID. */
  predicate IsFirstWithId(all: seq<CliPath>, p: CliPath) {
    Listed(all, p.id) && all[FirstIndex(all, p.id).value] == p
  }

  /** Selection by argument: each ID, in argument order, picks the first
      listed path with that ID; unknown IDs are dropped and a repeated ID
      picks its path again. */
  function SelectByIds(all: seq<CliPath>, args: seq<string>): (sel: seq<CliPath>)
    ensures |sel| <= |args|
    ensures forall i :: 0 <= i < |sel| ==> IsFirstWithId(all, sel[i]) && sel[i].id in args
  {
    if |args| == 0 then []
    else
      var rest := SelectByIds(all, args[1..]);
      match FirstIndex(all, args[0])
      case None => rest
      case Some(k) => [all[k]] + rest
  }

  /** The selection answers the arguments in order: its IDs are a
      subsequence of the arguments. */
  lemma {:induction false} SelectByIdsInOrder(all: seq<CliPath>, args: seq<string>)
    ensures IsSubsequence(Ids(SelectByIds(all, args)), args)
    decreases |args|
  {
    if |args| > 0 {
      var rest := SelectByIds(all, args[1..]);
      SelectByIdsInOrder(all, args[1..]);
      if Listed(all, args[0]) {
        var p := all[FirstIndex(all, args[0]).value];
        assert Ids([p] + rest) == [p.id] + Ids(rest);
        SubsequenceTake(args[0], Ids(rest), args[1..]);
        assert [args[0]] + args[1..] == args;
      } else {
        SubsequenceSkip(args[0], Ids(rest), args[1..]);
        assert [args[0]] + args[1..] == args;
      }
    }
  }

  /** Every listed argument is selected. */
  lemma {:induction false} SelectByIdsCoversListed(all: seq<CliPath>, args: seq<string>)
    ensures forall a :: a in args && Listed(all, a) ==> a in Ids(SelectByIds(all, args))
    decreases |args|
  {
    if |args| > 0 {
      var rest := SelectByIds(all, args[1..]);
      SelectByIdsCoversListed(all, args[1..]);
      if Listed(all, args[0]) {
        var p := all[FirstIndex(all, args[0]).value];
        assert Ids([p] + rest) == [p.id] + Ids(rest);
      }
      forall a | a in args && a != args[0]
        ensures a in args[1..]
      {
        assert args == [args[0]] + args[1..];
      }
    }
  }

  /** The arguments that name a listed path, in order, repeats included. */
  function ListedArgs(all: seq<CliPath>, args: seq<string>): seq<string> {
    if |args| == 0 then []
    else (if Listed(all, args[0]) then [args[0]] else []) + ListedArgs(all, args[1..])
  }

  /** The selected IDs are exactly the listed arguments: unknown IDs are
      dropped and every listed argument, repeats included, picks a path in
      argument order. */
  lemma {:induction false} SelectByIdsListedArgs(all: seq<CliPath>, args: seq<string>)
    ensures Ids(SelectByIds(all, args)) == ListedArgs(all, args)
    decreases |args|
  {
    if |args| > 0 {
      SelectByIdsListedArgs(all, args[1..]);
      var rest := SelectByIds(all, args[1..]);
      if Listed(all, args[0]) {
        var p := all[FirstIndex(all, args[0]).value];
        assert Ids([p] + rest) == [p.id] + Ids(rest);
      }
    }
  }

  /** When every argument is listed, the selected IDs are the arguments,
      repeats included. */
  lemma {:induction false} SelectByIdsAllListed(all: seq<CliPath>, args: seq<string>)
    requires forall i :: 0 <= i < |args| ==> Listed(all, args[i])
    ensures Ids(SelectByIds(all, args)) == args
    decreases |args|
  {
    if |args| > 0 {
      var tail := args[1..];
      assert forall i :: 0 <= i < |tail| ==> tail[i] == args[i + 1];
      SelectByIdsAllListed(all, tail);
      var p := all[FirstIndex(all, args[0]).value];
      var rest := SelectByIds(all, tail);
      assert SelectByIds(all, args) == [p] + rest;
      assert Ids([p] + rest) == [p.id] + Ids(rest);
      assert [args[0]] + tail == args;
    }
  }

  /** The paths the handler works on: every listed path when no ID is
      given, otherwise the selection by ID. */
  function Select(all: seq<CliPath>, args: seq<string>): (sel: seq<CliPath>)
    ensures |args| == 0 ==> sel == all
    ensures |args| > 0 ==> sel == SelectByIds(all, args)
  {
    if |args| > 0 then SelectByIds(all, args) else all
  }

  /** The relayer service as the handler sees it: the path listing, the
      keyring, `Link` with its three buckets, `GetPath` and `Start`. */
  datatype Service = Service(
    listing: Result<seq<CliPath>, string>,
    keyring: Option<string>,
    link: seq<CliPath> -> Result<TsRelayer.LinkResponse, string>,
    getPath: string -> Result<CliPath, string>,
    start: seq<string> -> Option<string>)

  /** What one run of the handler did: the argument of `Link` and of `Start`
      when they were called, and the error it returned. */
  datatype Run = Run(linkArg: Option<seq<CliPath>>, startArg: Option<seq<string>>, err: Option<string>)

  /** The first error `GetPath` reports for the IDs, in order. */
  function FirstGetPathError(getPath: string -> Result<CliPath, string>, ids: seq<string>): (r: Option<string>)
    ensures r.None? <==> forall i :: 0 <= i < |ids| ==> getPath(ids[i]).Success?
    ensures r.Some? ==> exists i :: (&& 0 <= i < |ids| && getPath(ids[i]) == Failure(r.value)
                                     && forall j :: 0 <= j < i ==> getPath(ids[j]).Success?)
  {
    if |ids| == 0 then None
    else
      match getPath(ids[0])
      case Failure(err) => Some(err)
      case Success(_) =>
        var r := FirstGetPathError(getPath, ids[1..]);
        if r.Some? then
          var i :| 0 <= i < |ids[1..]| && getPath(ids[1..][i]) == Failure(r.value)
                   && forall j :: 0 <= j < i ==> getPath(ids[1..][j]).Success?;
          assert getPath(ids[i + 1]) == Failure(r.value);
          r
        else r
  }

  /** The IDs the handler goes on with after `Link`. */
  function ToConnect(resp: TsRelayer.LinkResponse): seq<string> {
    resp.linkedPaths + resp.alreadyLinkedPaths
  }

  /** `relayerConnectHandler`. */
  function Handler(svc: Service, args: seq<string>): (r: Run)
    // a listing error ends the run before anything else is called
    ensures svc.listing.Failure? ==> r == Run(None, None, Some(svc.listing.error))
    // nothing selected: neither Link nor Start is called and nil is returned
    ensures svc.listing.Success? && |Select(svc.listing.value, args)| == 0 ==> r == Run(None, None, None)
    // a keyring error ends the run after a non-empty selection, before Link
    ensures svc.listing.Success? && |Select(svc.listing.value, args)| > 0 && svc.keyring.Some? ==>
      r == Run(None, None, svc.keyring)
    // with the keyring open, Link is called on the non-empty selection
    ensures svc.listing.Success? && |Select(svc.listing.value, args)| > 0 && svc.keyring.None? ==>
      r.linkArg == Some(Select(svc.listing.value, args))
    // Link is called on exactly the selection, and only if it is not empty
    ensures r.linkArg.Some? ==> svc.listing.Success? && r.linkArg.value == Select(svc.listing.value, args)
                                && |r.linkArg.value| > 0 && svc.keyring.None?
    // a Link error aborts before Start
    ensures r.linkArg.Some? && svc.link(r.linkArg.value).Failure? ==>
      r.startArg.None? && r.err == Some(svc.link(r.linkArg.value).error)
    // Start receives linked ++ already-linked, never empty, after every GetPath succeeded
    ensures r.startArg.Some? ==>
      && r.linkArg.Some? && svc.link(r.linkArg.value).Success?
      && r.startArg.value == ToConnect(svc.link(r.linkArg.value).value)
      && |r.startArg.value| > 0
      && (forall i :: 0 <= i < |r.startArg.value| ==> svc.getPath(r.startArg.value[i]).Success?)
      && r.err == svc.start(r.startArg.value)
    // the first failing GetPath ends the run with its error, before Start;
    // when every GetPath succeeds, Start is called and its error returned
    ensures r.linkArg.Some? && svc.link(r.linkArg.value).Success? && |ToConnect(svc.link(r.linkArg.value).value)| > 0 ==>
      var toConnect := ToConnect(svc.link(r.linkArg.value).value);
      && (FirstGetPathError(svc.getPath, toConnect).Some? ==>
            r.startArg.None? && r.err == FirstGetPathError(svc.getPath, toConnect))
      && (FirstGetPathError(svc.getPath, toConnect).None? ==>
            r.startArg == Some(toConnect) && r.err == svc.start(toConnect))
    // nothing linked: Start is not called and nil is returned
    ensures r.linkArg.Some? && svc.link(r.linkArg.value).Success? && |ToConnect(svc.link(r.linkArg.value).value)| == 0 ==>
      r.startArg.None? && r.err.None?
    // a successful selection and link with all paths found always reaches Start
    ensures && svc.listing.Success? && |Select(svc.listing.value, args)| > 0 && svc.keyring.None?
            && svc.link(Select(svc.listing.value, args)).Success?
            && |ToConnect(svc.link(Select(svc.listing.value, args)).value)| > 0
            && (forall id :: svc.getPath(id).Success?)
            ==> r.startArg.Some?
  {
    match svc.listing
    case Failure(err) => Run(None, None, Some(err))
    case Success(all) =>
      var selected := Select(all, args);
      if |selected| == 0 then Run(None, None, None)
      else if svc.keyring.Some? then Run(None, None, svc.keyring)
      else
        match svc.link(selected)
        case Failure(err) => Run(Some(selected), None, Some(err))
        case Success(resp) =>
          var toConnect := ToConnect(resp);
          if |toConnect| == 0 then Run(Some(selected), None, None)
          else
            match FirstGetPathError(svc.getPath, toConnect)
            case Some(err) => Run(Some(selected), None, Some(err))
            case None => Run(Some(selected), Some(toConnect), svc.start(toConnect))
  }

  /** `Link` answers each selected path exactly once: its buckets split the
      selected IDs, as the TypeScript relayer's `link` does. */
  ghost predicate PartitionsRequest(link: seq<CliPath> -> Result<TsRelayer.LinkResponse, string>) {
    forall sel :: link(sel).Success? ==>
      multiset(Ids(sel)) == multiset(link(sel).value.linkedPaths) + multiset(link(sel).value.alreadyLinkedPaths)
                            + multiset(TsRelayer.FailedNames(link(sel).value.failedToLinkPaths))
  }

  /** A `Link` that answers each path once reports no ID to go on with more
      often than it was requested. */
  lemma PartitionBound(link: seq<CliPath> -> Result<TsRelayer.LinkResponse, string>, sel: seq<CliPath>)
    requires PartitionsRequest(link) && link(sel).Success?
    ensures multiset(ToConnect(link(sel).value)) <= multiset(Ids(sel))
  {
    var resp := link(sel).value;
    assert multiset(Ids(sel)) == multiset(resp.linkedPaths) + multiset(resp.alreadyLinkedPaths)
                                 + multiset(TsRelayer.FailedNames(resp.failedToLinkPaths));
  }

  /** IDs drawn from a selection by argument are arguments. */
  lemma SelectedIdsAreArgs(all: seq<CliPath>, args: seq<string>, xs: seq<string>)
    requires multiset(xs) <= multiset(Ids(SelectByIds(all, args)))
    ensures forall id :: id in xs ==> id in args
  {
    var sel := SelectByIds(all, args);
    forall id | id in xs
      ensures id in args
    {
      assert id in multiset(xs);
      assert id in multiset(Ids(sel));
      var i :| 0 <= i < |sel| && Ids(sel)[i] == id;
      assert sel[i].id in args;
    }
  }

  /** With a `Link` that answers each selected path once, `Start` only ever
      sees selected IDs, no more often than they were selected; with
      arguments, each of them is one of the arguments. */
  lemma HandlerStartsOnlySelected(svc: Service, args: seq<string>)
    requires PartitionsRequest(svc.link)
    requires Handler(svc, args).startArg.Some?
    ensures var r := Handler(svc, args);
      && multiset(r.startArg.value) <= multiset(Ids(r.linkArg.value))
      && (|args| > 0 ==> forall id :: id in r.startArg.value ==> id in args)
  {
    var r := Handler(svc, args);
    PartitionBound(svc.link, r.linkArg.value);
    if |args| > 0 {
      SelectedIdsAreArgs(svc.listing.value, args, r.startArg.value);
    }
  }

  /** The TypeScript relayer's `link`, run on the registry `cfg` with the
      selected IDs and with a fatal error reported as `message`. */
  function TsLink(e: TsRelayer.Engine, cfg: TsRelayer.RelayerConfig, message: TsRelayer.Fatal -> string)
    : seq<CliPath> -> Result<TsRelayer.LinkResponse, string>
  {
    sel =>
      match TsRelayer.Link(e, cfg, Ids(sel)).outcome
      case Success(resp) => Success(resp)
      case Failure(f) => Failure(message(f))
  }

  /** The TypeScript `link` answers each selected path exactly once. */
  lemma TsLinkPartitionsRequest(e: TsRelayer.Engine, cfg: TsRelayer.RelayerConfig, message: TsRelayer.Fatal -> string)
    ensures PartitionsRequest(TsLink(e, cfg, message))
  {
    var link := TsLink(e, cfg, message);
    forall sel | link(sel).Success?
      ensures multiset(Ids(sel)) == multiset(link(sel).value.linkedPaths) + multiset(link(sel).value.alreadyLinkedPaths)
                                    + multiset(TsRelayer.FailedNames(link(sel).value.failedToLinkPaths))
    {
      TsRelayer.LinkBuckets(e, cfg, Ids(sel));
    }
  }
}

=== FILE: decimal.dfy ===
/** Decimal rendering of natural numbers, as Go's `fmt.Sprintf("%d", i)`
    prints a non-negative `int`. */
module Decimal {

  /** The ASCII digit for `d`. */
  function DigitChar(d: nat): (c: char)
    requires d < 10
    ensures '0' <= c <= '9'
    ensures c as int - '0' as int == d
  {
    (d + '0' as int) as char
  }

  /** The number a string of decimal digits denotes, most significant digit
      first; the empty string denotes 0. */
  function DecimalValue(s: string): int {
    if |s| == 0 then 0
    else 10 * DecimalValue(s[..|s| - 1]) + (s[|s| - 1] as int - '0' as int)
  }

  /** The shortest decimal numeral of `n`, most significant digit first. */
  function NatToString(n: nat): (s: string)
    ensures |s| >= 1
    ensures n >= 10 ==> |s| >= 2
    ensures forall i :: 0 <= i < |s| ==> '0' <= s[i] <= '9'
    // the numeral denotes `n` and has no leading zero
    ensures DecimalValue(s) == n
    ensures s[0] == '0' <==> n == 0
    decreases n
  {
    if n < 10 then [DigitChar(n)]
    else
      var prefix := NatToString(n / 10);
      var s := prefix + [DigitChar(n % 10)];
      assert s[..|s| - 1] == prefix;
      s
  }

  /** Distinct numbers have distinct numerals, since a numeral denotes its
      number. */
  lemma NatToStringInjective(a: nat, b: nat)
    ensures NatToString(a) == NatToString(b) ==> a == b
  {
  }
}

=== FILE: relayer.dfy ===
/** The Go side of linking (`starport/pkg/relayer/relayer.go`): RPC address
    normalisation and the `Link` driver, which asks the external relay
    engine to link every requested path that is not linked yet. */
module Relayer {
  import opened Base
  import opened RelayerConf

  /** `strings.TrimSuffix(s, "/")`: removes one trailing slash, if any. */
  function TrimSlash(s: string): string {
    if |s| > 0 && s[|s| - 1] == '/' then s[..|s| - 1] else s
  }

  /** `fixRPCAddress`: applies the default-port rule `ensurePort` (which is
      not part of this model and is therefore a parameter), then drops at
      most one trailing slash. */
  function FixRpcAddress(ensurePort: string -> string, address: string): (r: string)
    ensures var e := ensurePort(address);
      && r <= e
      && |e| - 1 <= |r| <= |e|
      && (r == e <==> !(|e| > 0 && e[|e| - 1] == '/'))
  {
    TrimSlash(ensurePort(address))
  }

  /** One `tsrelayer.Call(ctx, "link", [chainSrc, chainDst])` request. */
  datatype LinkCall = LinkCall(src: Chain, dst: Chain)

  /** What `Link` does: the engine calls it made, in order, and the error it
      returned. Its return type holds no registry: `Link` never saves. */
  datatype LinkRun = LinkRun(calls: seq<LinkCall>, err: Option<ConfigError>)

  /** A path whose source end has a channel is linked. */
  predicate IsLinked(p: Path) {
    p.src.channelId != ""
  }

  /** No registered chain carries `id`. */
  predicate NoChain(conf: Config, id: string) {
    forall i :: 0 <= i < |conf.chains| ==> conf.chains[i].id != id
  }

  /** The body of `Link`'s loop for one requested ID: the engine call it
      makes, none for an already-linked path, or the error that ends the
      loop. The source reads `path.Src.ID`, which is `Src.ChainID` here. */
  function LinkOne(conf: Config, id: string): (r: Result<Option<LinkCall>, ConfigError>)
    ensures id !in PathIds(conf.paths) ==> r == Failure(PathNotFound(id))
    ensures r == Success(None) <==> PathByID(conf, id).Success? && IsLinked(PathByID(conf, id).value)
    ensures r.Success? && r.value.Some? ==>
      var p := PathByID(conf, id).value;
      && PathByID(conf, id).Success? && !IsLinked(p)
      && r.value.value.src in conf.chains && r.value.value.dst in conf.chains
      && r.value.value.src.id == p.src.chainId
      && r.value.value.dst.id == p.dst.chainId
    ensures r.Failure? && id in PathIds(conf.paths) ==>
      var p := PathByID(conf, id).value;
      && !IsLinked(p)
      && r.error in {ChainNotFound(p.src.chainId), ChainNotFound(p.dst.chainId)}
      && ((forall i :: 0 <= i < |conf.chains| ==> conf.chains[i].id != p.src.chainId)
          || (forall i :: 0 <= i < |conf.chains| ==> conf.chains[i].id != p.dst.chainId))
    // the source chain is looked up, and reported missing, before the destination
    ensures id in PathIds(conf.paths) && !IsLinked(PathByID(conf, id).value) ==>
      var p := PathByID(conf, id).value;
      && (NoChain(conf, p.src.chainId) ==> r == Failure(ChainNotFound(p.src.chainId)))
      && (!NoChain(conf, p.src.chainId) && NoChain(conf, p.dst.chainId) ==> r == Failure(ChainNotFound(p.dst.chainId)))
  {
    match PathByID(conf, id)
    case Failure(e) => Failure(e)
    case Success(path) =>
      if IsLinked(path) then Success(None)
      else
        match ChainByID(conf, path.src.chainId)
        case Failure(e) => Failure(e)
        case Success(chainSrc) =>
          match ChainByID(conf, path.dst.chainId)
          case Failure(e) => Failure(e)
          case Success(chainDst) => Success(Some(LinkCall(chainSrc, chainDst)))
  }

  function CallsOf(o: Option<LinkCall>): seq<LinkCall> {
    match o
    case None => []
    case Some(c) => [c]
  }

  /** The outcome of every iteration of `Link`'s loop, in request order. */
  function Steps(conf: Config, ids: seq<string>): (r: seq<Result<Option<LinkCall>, ConfigError>>)
    ensures |r| == |ids|
    ensures forall i :: 0 <= i < |ids| ==> r[i] == LinkOne(conf, ids[i])
  {
    if |ids| == 0 then []
    else [LinkOne(conf, ids[0])] + Steps(conf, ids[1..])
  }

  /** Every engine call a sequence of outcomes carries, in order; an error
      carries none. */
  function StepCalls(steps: seq<Result<Option<LinkCall>, ConfigError>>): seq<LinkCall> {
    if |steps| == 0 then []
    else (if steps[0].Success? then CallsOf(steps[0].value) else []) + StepCalls(steps[1..])
  }

  /** The calls of a prefix that starts with a success are that success's
      call followed by the calls of the rest of the prefix. */
  lemma StepCallsPrefixes(steps: seq<Result<Option<LinkCall>, ConfigError>>)
    requires |steps| > 0 && steps[0].Success?
    ensures forall i :: 1 <= i <= |steps| ==>
      StepCalls(steps[..i]) == CallsOf(steps[0].value) + StepCalls(steps[1..][..i - 1])
  {
    forall i | 1 <= i <= |steps|
      ensures StepCalls(steps[..i]) == CallsOf(steps[0].value) + StepCalls(steps[1..][..i - 1])
    {
      assert steps[..i][1..] == steps[1..][..i - 1];
    }
  }

  /** Step `i` is the first that fails. */
  predicate FirstFailure(steps: seq<Result<Option<LinkCall>, ConfigError>>, i: int) {
    0 <= i < |steps| && steps[i].Failure? && forall j :: 0 <= j < i ==> steps[j].Success?
  }

  /** Runs iteration outcomes in order: the engine calls accumulate until the
      first error, which ends the loop. */
  function Run(steps: seq<Result<Option<LinkCall>, ConfigError>>): (r: LinkRun)
    ensures |r.calls| <= |steps|
    ensures r.err.None? <==> forall i :: 0 <= i < |steps| ==> steps[i].Success?
    ensures r.err.Some? ==> exists i :: 0 <= i < |steps| && steps[i] == Failure(r.err.value)
                                   && forall j :: 0 <= j < i ==> steps[j].Success?
  {
    if |steps| == 0 then LinkRun([], None)
    else
      match steps[0]
      case Failure(e) => LinkRun([], Some(e))
      case Success(call) =>
        var rest := Run(steps[1..]);
        assert forall i :: 1 <= i < |steps| ==> steps[i] == steps[1..][i - 1];
        LinkRun(CallsOf(call) + rest.calls, rest.err)
  }

  /** The calls `Run` makes: without an error every call of every outcome;
      otherwise exactly the calls of the outcomes before the first error,
      and none of the failing outcome or after it. */
  lemma {:induction false} RunCalls(steps: seq<Result<Option<LinkCall>, ConfigError>>)
    ensures Run(steps).err.None? ==> Run(steps).calls == StepCalls(steps)
    ensures forall i :: FirstFailure(steps, i) ==> Run(steps) == LinkRun(StepCalls(steps[..i]), Some(steps[i].error))
    decreases |steps|
  {
    if |steps| > 0 {
      if steps[0].Failure? {
        assert forall i :: FirstFailure(steps, i) ==> i == 0;
      } else {
        RunCalls(steps[1..]);
        assert forall i :: 1 <= i < |steps| ==> steps[i] == steps[1..][i - 1];
        assert forall i :: FirstFailure(steps, i) ==> i >= 1 && FirstFailure(steps[1..], i - 1);
        StepCallsPrefixes(steps);
      }
    }
  }

  /** `Link`'s loop over the requested IDs, in request order, stopping at the
      first error. The engine's reply and error are ignored. */
  function LinkAll(conf: Config, ids: seq<string>): (r: LinkRun)
    ensures |r.calls| <= |ids|
    ensures r.err.None? <==> forall i :: 0 <= i < |ids| ==> LinkOne(conf, ids[i]).Success?
    ensures r.err.Some? ==> exists i :: 0 <= i < |ids| && LinkOne(conf, ids[i]) == Failure(r.err.value)
                                   && forall j :: 0 <= j < i ==> LinkOne(conf, ids[j]).Success?
    ensures r.err.None? ==> r.calls == StepCalls(Steps(conf, ids))
    // a failing request ends the loop before its own engine call
    ensures forall i :: FirstFailure(Steps(conf, ids), i) ==>
      r == LinkRun(StepCalls(Steps(conf, ids[..i])), Some(LinkOne(conf, ids[i]).error))
  {
    StepsPrefixes(conf, ids);
    RunCalls(Steps(conf, ids));
    Run(Steps(conf, ids))
  }

  /** The outcomes of a prefix of the request are the prefix of its outcomes. */
  lemma StepsPrefixes(conf: Config, ids: seq<string>)
    ensures forall i :: 0 <= i <= |ids| ==> Steps(conf, ids[..i]) == Steps(conf, ids)[..i]
  {
    forall i | 0 <= i <= |ids|
      ensures Steps(conf, ids[..i]) == Steps(conf, ids)[..i]
    {
      assert |Steps(conf, ids[..i])| == |Steps(conf, ids)[..i]|;
      forall k | 0 <= k < i
        ensures Steps(conf, ids[..i])[k] == Steps(conf, ids)[..i][k]
      {
        assert ids[..i][k] == ids[k];
      }
    }
  }

  /** `Link`: loads the registry (refusing an outdated one) and runs the loop.
      The returned record carries no registry, so nothing is saved. */
  function Link(stored: Config, ids: seq<string>): (r: LinkRun)
    ensures !Readable(stored) ==> r == LinkRun([], Some(Outdated))
    ensures Readable(stored) ==> r == LinkAll(stored, ids)
  {
    match Get(stored)
    case Failure(e) => LinkRun([], Some(e))
    case Success(conf) => LinkAll(conf, ids)
  }

  /** Running two batches of outcomes one after the other is running their
      concatenation; the second is never looked at when the first fails. */
  lemma {:induction false} RunAppend(a: seq<Result<Option<LinkCall>, ConfigError>>, b: seq<Result<Option<LinkCall>, ConfigError>>)
    ensures Run(a + b) ==
      if Run(a).err.Some? then Run(a)
      else LinkRun(Run(a).calls + Run(b).calls, Run(b).err)
    decreases |a|
  {
    if |a| == 0 {
      assert a + b == b;
    } else {
      var ab := a + b;
      assert ab[0] == a[0] && ab[1..] == a[1..] + b;
      if a[0].Success? {
        RunAppend(a[1..], b);
        var ra := Run(a[1..]);
        assert CallsOf(a[0].value) + ra.calls + Run(b).calls
            == CallsOf(a[0].value) + (ra.calls + Run(b).calls);
      }
    }
  }

  /** A batch of requests is the concatenation of its parts: the calls of
      `a + b` are the calls of `a` followed by those of `b`, unless `a`
      already fails. */
  lemma LinkAllAppend(conf: Config, a: seq<string>, b: seq<string>)
    ensures LinkAll(conf, a + b) ==
      if LinkAll(conf, a).err.Some? then LinkAll(conf, a)
      else LinkRun(LinkAll(conf, a).calls + LinkAll(conf, b).calls, LinkAll(conf, b).err)
  {
    StepsAppend(conf, a, b);
    RunAppend(Steps(conf, a), Steps(conf, b));
  }

  lemma {:induction false} StepsAppend(conf: Config, a: seq<string>, b: seq<string>)
    ensures Steps(conf, a + b) == Steps(conf, a) + Steps(conf, b)
    decreases |a|
  {
    if |a| == 0 {
      assert a + b == b;
    } else {
      assert (a + b)[0] == a[0] && (a + b)[1..] == a[1..] + b;
      StepsAppend(conf, a[1..], b);
    }
  }

  /** Requests for linked paths make no engine call and no error, so
      repeating them has no effect. */
  lemma {:induction false} LinkAllLinkedIsQuiet(conf: Config, ids: seq<string>)
    requires forall i :: 0 <= i < |ids| ==> PathByID(conf, ids[i]).Success? && IsLinked(PathByID(conf, ids[i]).value)
    ensures LinkAll(conf, ids) == LinkRun([], None)
    decreases |ids|
  {
    if |ids| != 0 {
      assert LinkOne(conf, ids[0]) == Success(None);
      LinkAllLinkedIsQuiet(conf, ids[1..]);
    }
  }

  /** Outcomes that all carry a call run to completion with exactly those
      calls, in order. */
  lemma {:induction false} RunAllCalls(steps: seq<Result<Option<LinkCall>, ConfigError>>)
    requires forall i :: 0 <= i < |steps| ==> steps[i].Success? && steps[i].value.Some?
    ensures Run(steps).err == None
    ensures |Run(steps).calls| == |steps|
    ensures forall i :: 0 <= i < |steps| ==> Run(steps).calls[i] == steps[i].value.value
    decreases |steps|
  {
    if |steps| != 0 {
      RunAllCalls(steps[1..]);
      var rest := Run(steps[1..]).calls;
      assert Run(steps).calls == [steps[0].value.value] + rest;
      forall i | 1 <= i < |steps|
        ensures Run(steps).calls[i] == steps[i].value.value
      {
        assert steps[i] == steps[1..][i - 1];
      }
    }
  }

  /** Each unlinked, resolvable request makes exactly one engine call, in
      request order. */
  lemma LinkAllCallsPerRequest(conf: Config, ids: seq<string>)
    requires forall i :: 0 <= i < |ids| ==> PathByID(conf, ids[i]).Success? && !IsLinked(PathByID(conf, ids[i]).value)
    requires forall i :: 0 <= i < |ids| ==> LinkOne(conf, ids[i]).Success?
    ensures LinkAll(conf, ids).err == None
    ensures |LinkAll(conf, ids).calls| == |ids|
    ensures forall i :: 0 <= i < |ids| ==>
      LinkAll(conf, ids).calls[i].src.id == PathByID(conf, ids[i]).value.src.chainId
      && LinkAll(conf, ids).calls[i].dst.id == PathByID(conf, ids[i]).value.dst.chainId
  {
    var steps := Steps(conf, ids);
    forall i | 0 <= i < |steps|
      ensures steps[i].Success? && steps[i].value.Some?
    {
      assert steps[i] == LinkOne(conf, ids[i]);
    }
    RunAllCalls(steps);
  }

  /** With no IDs `Link` links nothing, although its doc comment promises to
      link every path. */
  lemma LinkWithoutIdsLinksNothing(stored: Config)
    requires Readable(stored)
    ensures Link(stored, []) == LinkRun([], None)
  {
  }
}

=== FILE: seqs.dfy ===
/** First- and last-match search by key, and order-preserving selection
    from a sequence. */
module Seqs {
  import opened Base

  /** Position of the first element whose key is `k`, if any: a search
      from the front that stops at the first match. */
  function FirstIndexWith<T, K(==)>(xs: seq<T>, key: T -> K, k: K): (r: Option<nat>)
    ensures r.None? <==> forall i :: 0 <= i < |xs| ==> key(xs[i]) != k
    ensures r.Some? ==> r.value < |xs| && key(xs[r.value]) == k
                        && forall j :: 0 <= j < r.value ==> key(xs[j]) != k
  {
    if |xs| == 0 then None
    else if key(xs[0]) == k then Some(0)
    else
      match FirstIndexWith(xs[1..], key, k)
      case None => None
      case Some(i) => Some(i + 1)
  }

  /** Position of the last element whose key is `k`, if any. */
  function LastIndexWith<T, K(==)>(xs: seq<T>, key: T -> K, k: K): (r: Option<nat>)
    ensures r.None? <==> forall i :: 0 <= i < |xs| ==> key(xs[i]) != k
    ensures r.Some? ==> r.value < |xs| && key(xs[r.value]) == k
                        && forall j :: r.value < j < |xs| ==> key(xs[j]) != k
  {
    if |xs| == 0 then None
    else
      match LastIndexWith(xs[1..], key, k)
      case Some(i) => Some(i + 1)
      case None => if key(xs[0]) == k then Some(0) else None
  }

  /** The last match is the only match with no match after it. */
  lemma LastIndexWithUnique<T, K>(xs: seq<T>, key: T -> K, k: K, i: nat)
    requires i < |xs| && key(xs[i]) == k && forall j :: i < j < |xs| ==> key(xs[j]) != k
    ensures LastIndexWith(xs, key, k) == Some(i)
  {
  }

  /** `a` can be obtained from `b` by deleting elements: the order of `a`
      is the order in which its elements occur in `b`. */
  predicate IsSubsequence<T(==)>(a: seq<T>, b: seq<T>)
    decreases |b|
  {
    if |a| == 0 then true
    else if |b| == 0 then false
    else if a[0] == b[0] then IsSubsequence(a[1..], b[1..])
    else IsSubsequence(a, b[1..])
  }

  /** Dropping the head of `b` keeps any subsequence of the tail. */
  lemma {:induction false} SubsequenceSkip<T>(x: T, a: seq<T>, b: seq<T>)
    requires IsSubsequence(a, b)
    ensures IsSubsequence(a, [x] + b)
    decreases |b|, 1
  {
    assert ([x] + b)[1..] == b;
    if |a| != 0 && a[0] == x {
      SubsequenceDropHead(a, b);
    }
  }

  /** Dropping the head of `a` keeps it a subsequence. */
  lemma {:induction false} SubsequenceDropHead<T>(a: seq<T>, b: seq<T>)
    requires |a| > 0 && IsSubsequence(a, b)
    ensures IsSubsequence(a[1..], b)
    decreases |b|, 0
  {
    assert |b| > 0;
    if a[0] == b[0] {
      SubsequenceSkip(b[0], a[1..], b[1..]);
      assert [b[0]] + b[1..] == b;
    } else {
      SubsequenceDropHead(a, b[1..]);
      SubsequenceSkip(b[0], a[1..], b[1..]);
      assert [b[0]] + b[1..] == b;
    }
  }

  /** A common head can be kept: `[x] + a` is a subsequence of `[x] + b`. */
  lemma SubsequenceTake<T>(x: T, a: seq<T>, b: seq<T>)
    requires IsSubsequence(a, b)
    ensures IsSubsequence([x] + a, [x] + b)
  {
    assert ([x] + a)[1..] == a;
    assert ([x] + b)[1..] == b;
  }
}

=== FILE: ts_relayer.dfy ===
/** The TypeScript relayer's `link` (`scripts/data/gen-nodetime/src/relayer/lib/relayer.ts`):
    it sorts the requested paths into already-linked, linked and failed
    buckets, creating a link for each path that is not linked yet and
    recording the outcome in the path's record. Balance checks, IBC client
    creation and the handshake are oracles of an `Engine`; the registry's
    auto-persisting proxy is the threaded `RelayerConfig` value. */
module TsRelayer {
  import opened Base
  import opened Seqs

  datatype Ordering = OrderUnordered | OrderOrdered

  /** `ConnectOptions`: ports, versions and ordering of the channel to open. */
  datatype ConnectOptions = ConnectOptions(
    sourcePort: string,
    sourceVersion: string,
    targetPort: string,
    targetVersion: string,
    ordering: Ordering)

  datatype Connections = Connections(srcConnection: string, destConnection: string)

  /** One side of a path; `channelId` is optional in the file format. */
  datatype Endpoint = Endpoint(channelId: Option<string>, chainId: string, portId: string)

  datatype Path = Path(id: string, isLinked: bool, src: Endpoint, dst: Endpoint)

  datatype PacketHeights = PacketHeights(packetHeightA: int, packetHeightB: int, ackHeightA: int, ackHeightB: int)

  /** A path record of the registry, with its optional parts. */
  datatype PathConfig = PathConfig(
    path: Path,
    options: Option<ConnectOptions>,
    connections: Option<Connections>,
    relayerData: Option<PacketHeights>)

  datatype ChainConfig = ChainConfig(
    chainId: string,
    account: string,
    rpcAddr: string,
    addressPrefix: string,
    gasPrice: string,
    gasLimit: int)

  /** The registry; both lists may be absent from the file. */
  datatype RelayerConfig = RelayerConfig(chains: Option<seq<ChainConfig>>, paths: Option<seq<PathConfig>>)

  /** The channel IDs `createChannel` reports on both ends. */
  datatype ChannelPair = ChannelPair(srcChannelId: string, destChannelId: string)

  /** The outside world as `createLink` sees it: whether `GasPrice.fromString`
      accepts a gas price, the account-balance query of a chain (its error,
      or whether the funds cover the IBC setup at the chain's gas price),
      whether an IBC client for a chain can be built, and the outcome of the
      connection and channel handshakes. */
  datatype Engine = Engine(
    gasPriceOk: string -> bool,
    balance: ChainConfig -> Result<bool, string>,
    clientOk: ChainConfig -> bool,
    connect: (ChainConfig, ChainConfig) -> Result<Connections, string>,
    createChannel: (ChainConfig, ChainConfig, ConnectOptions) -> Result<ChannelPair, string>)

  /** Why a path failed to link without ending the batch. `TypeError` is a
      JavaScript `TypeError` raised and caught inside the `try` block. */
  datatype LinkFailure =
    | NotEnoughBalance(chainId: string)
    | EngineError(message: string)
    | TypeError

  /** `LinkStatus`: the outcome of one `createLink`. */
  datatype LinkStatus = Linked(pathName: string) | NotLinked(pathName: string, error: LinkFailure)

  /** Exceptions that escape `link` and end the whole batch. A requested name
      with no path, and a missing chain record, surface as JavaScript
      `TypeError`s; they are named by their cause here. A gas price that does
      not parse, a failed balance query and a client that cannot be built
      are thrown outside `createLink`'s `try` block. */
  datatype Fatal =
    | PathsNotDefined
    | UnknownPath(pathName: string)
    | MissingChain(chainId: string)
    | BadGasPrice(gasPrice: string)
    | BalanceQueryFailed(chainId: string, message: string)
    | ClientFailed(chainId: string)

  /** The exceptions `createLink` itself can throw. */
  predicate CreateLinkFatal(f: Fatal) {
    f.MissingChain? || f.BadGasPrice? || f.BalanceQueryFailed? || f.ClientFailed?
  }

  datatype LinkError = LinkError(pathName: string, error: LinkFailure)

  /** `LinkResponse`: the three buckets `link` returns. */
  datatype LinkResponse = LinkResponse(
    linkedPaths: seq<string>,
    alreadyLinkedPaths: seq<string>,
    failedToLinkPaths: seq<LinkError>)

  // ---------------------------------------------------------------------------
  // Lookups

  function PathConfigId(pc: PathConfig): string { pc.path.id }

  /** Position of the first path record carrying `id`. */
  function PathIndex(paths: seq<PathConfig>, id: string): (r: Option<nat>)
    ensures r.Some? ==> r.value < |paths| && paths[r.value].path.id == id
    ensures r.Some? ==> forall j :: 0 <= j < r.value ==> paths[j].path.id != id
    ensures r.None? <==> forall j :: 0 <= j < |paths| ==> paths[j].path.id != id
  {
    FirstIndexWith(paths, PathConfigId, id)
  }

  /** `pathById`: the first record with that ID, or nothing when there is no
      such record or no path list at all. */
  function PathById(paths: Option<seq<PathConfig>>, id: string): (r: Option<PathConfig>)
    ensures paths.None? ==> r.None?
    ensures r.Some? ==>
      && paths.Some? && r.value.path.id == id
      && exists i :: 0 <= i < |paths.value| && paths.value[i] == r.value
                     && forall j :: 0 <= j < i ==> paths.value[j].path.id != id
    ensures paths.Some? ==> (r.None? <==> forall j :: 0 <= j < |paths.value| ==> paths.value[j].path.id != id)
  {
    match paths
    case None => None
    case Some(ps) =>
      match PathIndex(ps, id)
      case None => None
      case Some(i) => Some(ps[i])
  }

  function ChainConfigId(c: ChainConfig): string { c.chainId }

  /** `chainById`: the first chain record with that ID, or nothing when there
      is no such record or no chain list at all. */
  function ChainById(chains: Option<seq<ChainConfig>>, id: string): (r: Option<ChainConfig>)
    ensures chains.None? ==> r.None?
    ensures r.Some? ==> r.value.chainId == id
  {
    match chains
    case None => None
    case Some(cs) =>
      match FirstIndexWith(cs, ChainConfigId, id)
      case None => None
      case Some(i) => Some(cs[i])
  }

  /** `chainById` finds the first record with the ID, and finds nothing only
      when no record has it. */
  lemma ChainByIdIsFirst(chains: Option<seq<ChainConfig>>, id: string)
    ensures var r := ChainById(chains, id);
      && (r.Some? ==> chains.Some? && exists i :: (&& 0 <= i < |chains.value| && chains.value[i] == r.value
                                                   && forall j :: 0 <= j < i ==> chains.value[j].chainId != id))
      && (chains.Some? ==> (r.None? <==> forall j :: 0 <= j < |chains.value| ==> chains.value[j].chainId != id))
  {
    if chains.Some? && FirstIndexWith(chains.value, ChainConfigId, id).Some? {
      var i := FirstIndexWith(chains.value, ChainConfigId, id).value;
      assert chains.value[i] == ChainById(chains, id).value;
    }
  }

  // ---------------------------------------------------------------------------
  // createLink

  /** The record of a path after a successful handshake: both channel IDs,
      the linked flag and the connections are set, and the relaying progress
      is cleared. */
  function MarkLinked(pc: PathConfig, channels: ChannelPair, connections: Connections): PathConfig {
    pc.(path := pc.path.(
          isLinked := true,
          src := pc.path.src.(channelId := Some(channels.srcChannelId)),
          dst := pc.path.dst.(channelId := Some(channels.destChannelId))),
        connections := Some(connections),
        relayerData := None)
  }

  /** The two records describe the same route: same path ID, same chains at
      both ends, same ports and same channel options. */
  predicate SameRoute(a: PathConfig, b: PathConfig) {
    && a.path.id == b.path.id
    && a.path.src.chainId == b.path.src.chainId && a.path.src.portId == b.path.src.portId
    && a.path.dst.chainId == b.path.dst.chainId && a.path.dst.portId == b.path.dst.portId
    && a.options == b.options
  }

  /** Two path lists describe the same routes, position by position. */
  predicate SameRoutes(a: seq<PathConfig>, b: seq<PathConfig>) {
    |a| == |b| && forall i :: 0 <= i < |a| ==> SameRoute(a[i], b[i])
  }

  /** Replacing one record by one on the same route keeps every route and
      every other record. */
  lemma UpdateKeepsRoutes(paths: seq<PathConfig>, j: nat, rec: PathConfig)
    requires j < |paths| && SameRoute(paths[j], rec)
    ensures SameRoutes(paths, paths[j := rec])
    ensures forall i :: 0 <= i < |paths| && i != j ==> paths[j := rec][i] == paths[i]
  {
  }

  /** `createLink`'s effect: its status and the path list afterwards. */
  datatype Created = Created(status: LinkStatus, paths: seq<PathConfig>)

  /** `balanceCheck`: the balance query runs first, then the chain's gas
      price is parsed; either can throw. Otherwise the answer is whether the
      funds cover the IBC setup. */
  function BalanceCheck(e: Engine, chain: ChainConfig): Result<bool, Fatal> {
    match e.balance(chain)
    case Failure(message) => Failure(BalanceQueryFailed(chain.chainId, message))
    case Success(enough) =>
      if e.gasPriceOk(chain.gasPrice) then Success(enough) else Failure(BadGasPrice(chain.gasPrice))
  }

  /** `createLink` for the record `pc` of the path list `paths`: it reports
      under the path's own name, keeps every route, changes nothing when it
      fails, and on success marks exactly the record it looked up again as
      linked. */
  function CreateLink(e: Engine, chains: Option<seq<ChainConfig>>, paths: seq<PathConfig>, pc: PathConfig)
    : (r: Result<Created, Fatal>)
    ensures r.Success? ==> r.value.status.pathName == pc.path.id && SameRoutes(paths, r.value.paths)
    ensures r.Success? && r.value.status.NotLinked? ==> r.value.paths == paths
    ensures r.Success? && r.value.status.Linked? ==>
      && PathIndex(paths, pc.path.id).Some?
      && var j := PathIndex(paths, pc.path.id).value;
      && (forall i :: 0 <= i < |paths| && i != j ==> r.value.paths[i] == paths[i])
      && r.value.paths[j].path.isLinked
  {
    var chainA := ChainById(chains, pc.path.src.chainId);
    var chainB := ChainById(chains, pc.path.dst.chainId);
    // the first chain's gas price is parsed (twice) before any balance check
    if chainA.None? then Failure(MissingChain(pc.path.src.chainId))
    else if !e.gasPriceOk(chainA.value.gasPrice) then Failure(BadGasPrice(chainA.value.gasPrice))
    else if BalanceCheck(e, chainA.value).Failure? then Failure(BalanceCheck(e, chainA.value).error)
    else if !BalanceCheck(e, chainA.value).value then
      Success(Created(NotLinked(pc.path.id, NotEnoughBalance(chainA.value.chainId)), paths))
    else if chainB.None? then Failure(MissingChain(pc.path.dst.chainId))
    else if BalanceCheck(e, chainB.value).Failure? then Failure(BalanceCheck(e, chainB.value).error)
    else if !BalanceCheck(e, chainB.value).value then
      Success(Created(NotLinked(pc.path.id, NotEnoughBalance(chainB.value.chainId)), paths))
    else if !e.clientOk(chainA.value) then Failure(ClientFailed(chainA.value.chainId))
    else if !e.clientOk(chainB.value) then Failure(ClientFailed(chainB.value.chainId))
    else
      match e.connect(chainA.value, chainB.value)
      case Failure(message) => Success(Created(NotLinked(pc.path.id, EngineError(message)), paths))
      case Success(connections) =>
        match pc.options
        case None => Success(Created(NotLinked(pc.path.id, TypeError), paths))
        case Some(options) =>
          match e.createChannel(chainA.value, chainB.value, options)
          case Failure(message) => Success(Created(NotLinked(pc.path.id, EngineError(message)), paths))
          case Success(channels) =>
            match PathIndex(paths, pc.path.id)
            case None => Success(Created(NotLinked(pc.path.id, TypeError), paths))
            case Some(j) =>
              var linked := MarkLinked(paths[j], channels, connections);
              UpdateKeepsRoutes(paths, j, linked);
              Success(Created(Linked(pc.path.id), paths[j := linked]))
  }

  /** A link is only reported after both chains, both gas prices, both
      balance checks, both clients and both handshakes succeeded, and the record then carries what the handshakes
      returned, with the relaying progress cleared. */
  lemma CreateLinkRecordsHandshake(e: Engine, chains: Option<seq<ChainConfig>>, paths: seq<PathConfig>, pc: PathConfig)
    requires CreateLink(e, chains, paths, pc).Success? && CreateLink(e, chains, paths, pc).value.status.Linked?
    ensures var r := CreateLink(e, chains, paths, pc).value;
      && var chainA := ChainById(chains, pc.path.src.chainId);
      && var chainB := ChainById(chains, pc.path.dst.chainId);
      && chainA.Some? && chainB.Some?
      && e.gasPriceOk(chainA.value.gasPrice) && e.gasPriceOk(chainB.value.gasPrice)
      && e.balance(chainA.value) == Success(true) && e.balance(chainB.value) == Success(true)
      && e.clientOk(chainA.value) && e.clientOk(chainB.value)
      && e.connect(chainA.value, chainB.value).Success?
      && pc.options.Some?
      && var channels := e.createChannel(chainA.value, chainB.value, pc.options.value);
      && channels.Success?
      && var j := PathIndex(paths, pc.path.id).value;
      && r.paths[j].path.src.channelId == Some(channels.value.srcChannelId)
      && r.paths[j].path.dst.channelId == Some(channels.value.destChannelId)
      && r.paths[j].connections == Some(e.connect(chainA.value, chainB.value).value)
      && r.paths[j].relayerData.None?
  {
  }

  /** How `createLink` fails. A missing first chain, a first gas price that
      does not parse and a failed first balance query are fatal, in that
      order; a balance shortfall on either chain is a per-path failure naming
      that chain; a handshake exception is caught and its message reported, and a
      `TypeError` only follows a successful connection handshake;
      every other fatal error is a missing second chain, or a gas price, a
      balance query or a client of one of the two chains that fails. */
  lemma CreateLinkFailures(e: Engine, chains: Option<seq<ChainConfig>>, paths: seq<PathConfig>, pc: PathConfig)
    ensures var r := CreateLink(e, chains, paths, pc);
      var chainA := ChainById(chains, pc.path.src.chainId);
      var chainB := ChainById(chains, pc.path.dst.chainId);
      && (chainA.None? ==> r == Failure(MissingChain(pc.path.src.chainId)))
      && (chainA.Some? && !e.gasPriceOk(chainA.value.gasPrice) ==> r == Failure(BadGasPrice(chainA.value.gasPrice)))
      && (chainA.Some? && e.gasPriceOk(chainA.value.gasPrice) && e.balance(chainA.value).Failure? ==>
            r == Failure(BalanceQueryFailed(pc.path.src.chainId, e.balance(chainA.value).error)))
      && (chainA.Some? && e.gasPriceOk(chainA.value.gasPrice) && e.balance(chainA.value) == Success(false) ==>
            r == Success(Created(NotLinked(pc.path.id, NotEnoughBalance(pc.path.src.chainId)), paths)))
      && (r.Success? && r.value.status.NotLinked? && r.value.status.error.NotEnoughBalance? ==>
            exists c :: c in [chainA, chainB]
                        && c.Some? && e.balance(c.value) == Success(false) && r.value.status.error.chainId == c.value.chainId)
      && (r.Success? && r.value.status.NotLinked? && r.value.status.error.EngineError? ==>
            && chainA.Some? && chainB.Some?
            && var connect := e.connect(chainA.value, chainB.value);
            && (|| connect == Failure(r.value.status.error.message)
                || (&& connect.Success? && pc.options.Some?
                    && e.createChannel(chainA.value, chainB.value, pc.options.value) == Failure(r.value.status.error.message))))
      && (r.Success? && r.value.status.NotLinked? && r.value.status.error.TypeError? ==>
            && chainA.Some? && chainB.Some?
            && e.connect(chainA.value, chainB.value).Success?
            && (|| pc.options.None?
                || (&& e.createChannel(chainA.value, chainB.value, pc.options.value).Success?
                    && PathIndex(paths, pc.path.id).None?)))
      && (r.Failure? ==> CreateLinkFatal(r.error))
      && (r.Failure? && r.error.MissingChain? ==>
            || r.error == MissingChain(pc.path.src.chainId)
            || (r.error == MissingChain(pc.path.dst.chainId) && chainB.None?))
      && (r.Failure? && r.error.BadGasPrice? ==>
            exists c :: c in [chainA, chainB] && c.Some? && !e.gasPriceOk(c.value.gasPrice) && r.error.gasPrice == c.value.gasPrice)
      && (r.Failure? && r.error.BalanceQueryFailed? ==>
            exists c :: c in [chainA, chainB]
                        && c.Some? && e.balance(c.value) == Failure(r.error.message) && r.error.chainId == c.value.chainId)
      && (r.Failure? && r.error.ClientFailed? ==>
            exists c :: c in [chainA, chainB] && c.Some? && !e.clientOk(c.value) && r.error.chainId == c.value.chainId)
  {
  }

  /** Once the first chain passed its checks, the second chain is checked in
      the same order: it must exist, its balance query must answer, its gas
      price must parse and its funds must suffice. Only then are the
      clients built, the first chain's before the second's. */
  lemma CreateLinkSecondChain(e: Engine, chains: Option<seq<ChainConfig>>, paths: seq<PathConfig>, pc: PathConfig)
    requires ChainById(chains, pc.path.src.chainId).Some?
    requires e.gasPriceOk(ChainById(chains, pc.path.src.chainId).value.gasPrice)
    requires e.balance(ChainById(chains, pc.path.src.chainId).value) == Success(true)
    ensures var r := CreateLink(e, chains, paths, pc);
      var chainA := ChainById(chains, pc.path.src.chainId).value;
      var chainB := ChainById(chains, pc.path.dst.chainId);
      && (chainB.None? ==> r == Failure(MissingChain(pc.path.dst.chainId)))
      && (chainB.Some? && e.balance(chainB.value).Failure? ==>
            r == Failure(BalanceQueryFailed(pc.path.dst.chainId, e.balance(chainB.value).error)))
      && (chainB.Some? && e.balance(chainB.value).Success? && !e.gasPriceOk(chainB.value.gasPrice) ==>
            r == Failure(BadGasPrice(chainB.value.gasPrice)))
      && (chainB.Some? && e.balance(chainB.value) == Success(false) && e.gasPriceOk(chainB.value.gasPrice) ==>
            r == Success(Created(NotLinked(pc.path.id, NotEnoughBalance(pc.path.dst.chainId)), paths)))
      && (chainB.Some? && e.balance(chainB.value) == Success(true) && e.gasPriceOk(chainB.value.gasPrice) ==>
            && (!e.clientOk(chainA) ==> r == Failure(ClientFailed(pc.path.src.chainId)))
            && (e.clientOk(chainA) && !e.clientOk(chainB.value) ==> r == Failure(ClientFailed(pc.path.dst.chainId))))
  {
  }

  /** Once both chains are ready and both funds suffice, everything left
      happens inside the `try` block, so nothing is thrown: a failing
      connection handshake, or a failing channel handshake after it, is
      reported with its message; after a connection, missing channel options
      are a `TypeError`; after both handshakes the record the lookup of its
      ID finds carries their results and no other record changes, or the
      path fails with a `TypeError` when there is no such record. */
  lemma CreateLinkSucceeds(e: Engine, chains: Option<seq<ChainConfig>>, paths: seq<PathConfig>, pc: PathConfig)
    requires Ready(e, chains, pc)
    requires e.balance(ChainById(chains, pc.path.src.chainId).value) == Success(true)
    requires e.balance(ChainById(chains, pc.path.dst.chainId).value) == Success(true)
    ensures var chainA := ChainById(chains, pc.path.src.chainId).value;
      var chainB := ChainById(chains, pc.path.dst.chainId).value;
      var r := CreateLink(e, chains, paths, pc);
      && r.Success?
      && (e.connect(chainA, chainB).Failure? ==>
            r == Success(Created(NotLinked(pc.path.id, EngineError(e.connect(chainA, chainB).error)), paths)))
      && (e.connect(chainA, chainB).Success? && pc.options.None? ==>
            r == Success(Created(NotLinked(pc.path.id, TypeError), paths)))
      && (e.connect(chainA, chainB).Success? && pc.options.Some?
          && e.createChannel(chainA, chainB, pc.options.value).Failure? ==>
            r == Success(Created(NotLinked(pc.path.id, EngineError(e.createChannel(chainA, chainB, pc.options.value).error)), paths)))
      && (e.connect(chainA, chainB).Success? && pc.options.Some?
          && e.createChannel(chainA, chainB, pc.options.value).Success? ==>
            var connections := e.connect(chainA, chainB).value;
            var channels := e.createChannel(chainA, chainB, pc.options.value).value;
            match PathIndex(paths, pc.path.id)
            case None => r == Success(Created(NotLinked(pc.path.id, TypeError), paths))
            case Some(j) => r == Success(Created(Linked(pc.path.id), paths[j := MarkLinked(paths[j], channels, connections)])))
  {
  }

  /** A balance shortfall is reported before any handshake is attempted: the
      outcome is the same whatever the handshakes would have done. */
  lemma BalanceFailureSkipsHandshakes(e: Engine, handshakes: Engine, chains: Option<seq<ChainConfig>>, paths: seq<PathConfig>, pc: PathConfig)
    requires CreateLink(e, chains, paths, pc).Success?
    requires CreateLink(e, chains, paths, pc).value.status.NotLinked?
    requires CreateLink(e, chains, paths, pc).value.status.error.NotEnoughBalance?
    ensures var other := e.(connect := handshakes.connect, createChannel := handshakes.createChannel);
      CreateLink(other, chains, paths, pc) == CreateLink(e, chains, paths, pc)
    ensures CreateLink(e, chains, paths, pc).value.paths == paths
  {
  }

  // ---------------------------------------------------------------------------
  // link

  /** What `link` asks of the per-path linker: `createLink` on the path list
      `paths` and one of its records. */
  type Linker = (seq<PathConfig>, PathConfig) -> Result<Created, Fatal>

  /** `createLink` with its engine and chain list fixed. */
  function CreateLinker(e: Engine, chains: Option<seq<ChainConfig>>): Linker {
    (paths, pc) => CreateLink(e, chains, paths, pc)
  }

  /** The effect `c` of linking `pc` in `paths` is one `createLink` may have:
      reported under the path's name, every route kept, nothing changed on
      failure, and on success exactly the record found by the path's ID
      marked linked. */
  predicate LinkEffect(paths: seq<PathConfig>, pc: PathConfig, c: Created) {
    && c.status.pathName == pc.path.id
    && SameRoutes(paths, c.paths)
    && (c.status.NotLinked? ==> c.paths == paths)
    && (c.status.Linked? ==>
          && PathIndex(paths, pc.path.id).Some?
          && (forall i :: 0 <= i < |paths| && i != PathIndex(paths, pc.path.id).value ==> c.paths[i] == paths[i])
          && c.paths[PathIndex(paths, pc.path.id).value].path.isLinked)
  }

  /** Every successful answer of `create` is a `createLink` effect. */
  ghost predicate LinkerOk(create: Linker) {
    forall paths, pc ::
      && (create(paths, pc).Success? ==> LinkEffect(paths, pc, create(paths, pc).value))
      && (create(paths, pc).Failure? ==> CreateLinkFatal(create(paths, pc).error))
  }

  lemma CreateLinkerOk(e: Engine, chains: Option<seq<ChainConfig>>)
    ensures LinkerOk(CreateLinker(e, chains))
  {
    var create := CreateLinker(e, chains);
    forall paths, pc
      ensures create(paths, pc).Success? ==> LinkEffect(paths, pc, create(paths, pc).value)
      ensures create(paths, pc).Failure? ==> CreateLinkFatal(create(paths, pc).error)
    {
      assert create(paths, pc) == CreateLink(e, chains, paths, pc);
    }
  }

  /** The requested path named `name` exists and is linked. */
  predicate IsLinkedIn(paths: seq<PathConfig>, name: string) {
    PathIndex(paths, name).Some? && paths[PathIndex(paths, name).value].path.isLinked
  }

  /** What `link`'s first loop collects: the names found already linked and
      the `createLink` statuses, each in request order. */
  datatype Progress = Progress(alreadyLinked: seq<string>, results: seq<LinkStatus>)

  /** `link`'s first loop and the path list it leaves behind; the list is
      returned even when an exception ends the loop, because every change is
      written through at once. */
  datatype Steps = Steps(outcome: Result<Progress, Fatal>, paths: seq<PathConfig>)

  /** `link`'s first loop over the requested names: a name without a record
      ends it (`createLink` of nothing throws), a linked record goes to the
      already-linked bucket, any other record is handed to the linker and
      the loop goes on with the path list the linker left. */
  function LinkSteps(create: Linker, paths: seq<PathConfig>, names: seq<string>): (r: Steps)
    ensures r.outcome.Success? ==> |r.outcome.value.alreadyLinked| + |r.outcome.value.results| == |names|
    decreases |names|
  {
    if |names| == 0 then Steps(Success(Progress([], [])), paths)
    else
      var name := names[0];
      match PathIndex(paths, name)
      case None => Steps(Failure(UnknownPath(name)), paths)
      case Some(i) =>
        if paths[i].path.isLinked then
          var rest := LinkSteps(create, paths, names[1..]);
          match rest.outcome
          case Failure(f) => Steps(Failure(f), rest.paths)
          case Success(p) => Steps(Success(Progress([name] + p.alreadyLinked, p.results)), rest.paths)
        else
          match create(paths, paths[i])
          case Failure(f) => Steps(Failure(f), paths)
          case Success(created) =>
            var rest := LinkSteps(create, created.paths, names[1..]);
            match rest.outcome
            case Failure(f) => Steps(Failure(f), rest.paths)
            case Success(p) => Steps(Success(Progress(p.alreadyLinked, [created.status] + p.results)), rest.paths)
  }

  /** The names of the successful statuses, in order. */
  function LinkedNames(results: seq<LinkStatus>): seq<string> {
    if |results| == 0 then []
    else (if results[0].Linked? then [results[0].pathName] else []) + LinkedNames(results[1..])
  }

  /** The failed statuses with their errors, in order. */
  function FailedEntries(results: seq<LinkStatus>): seq<LinkError> {
    if |results| == 0 then []
    else (if results[0].NotLinked? then [LinkError(results[0].pathName, results[0].error)] else [])
         + FailedEntries(results[1..])
  }

  /** The path names of failure entries, in order. */
  function FailedNames(failed: seq<LinkError>): seq<string> {
    if |failed| == 0 then [] else [failed[0].pathName] + FailedNames(failed[1..])
  }

  /** The outcome of `link` and the registry afterwards. */
  datatype LinkRun = LinkRun(outcome: Result<LinkResponse, Fatal>, config: RelayerConfig)

  /** `link`: refuses a registry without a path list, runs the first loop,
      then splits the statuses into the linked and failed buckets. */
  function Link(e: Engine, cfg: RelayerConfig, names: seq<string>): (r: LinkRun)
    ensures cfg.paths.None? <==> r.outcome == Failure(PathsNotDefined)
    ensures cfg.paths.None? ==> r.config == cfg
    ensures r.config.chains == cfg.chains
    ensures cfg.paths.Some? ==> r.config.paths.Some? && SameRoutes(cfg.paths.value, r.config.paths.value)
                                && KeepsLinked(cfg.paths.value, r.config.paths.value)
  {
    match cfg.paths
    case None => LinkRun(Failure(PathsNotDefined), cfg)
    case Some(paths) =>
      var steps := LinkSteps(CreateLinker(e, cfg.chains), paths, names);
      CreateLinkerOk(e, cfg.chains);
      LinkStepsKeepsRoutes(CreateLinker(e, cfg.chains), paths, names);
      LinkStepsFatal(CreateLinker(e, cfg.chains), paths, names);
      var config := cfg.(paths := Some(steps.paths));
      match steps.outcome
      case Failure(f) => LinkRun(Failure(f), config)
      case Success(p) =>
        LinkRun(Success(LinkResponse(LinkedNames(p.results), p.alreadyLinked, FailedEntries(p.results))), config)
  }

  // ---------------------------------------------------------------------------
  // Properties of the first loop

  /** `b` keeps every record that is linked in `a`. */
  predicate KeepsLinked(a: seq<PathConfig>, b: seq<PathConfig>) {
    |a| == |b| && forall i :: 0 <= i < |a| && a[i].path.isLinked ==> b[i] == a[i]
  }

  /** No record carries `id`. */
  predicate Unknown(paths: seq<PathConfig>, id: string) {
    forall j :: 0 <= j < |paths| ==> paths[j].path.id != id
  }

  /** The path list `b` has the same IDs as `a`, so each name finds the same
      record position in both. */
  lemma {:induction false} PathIndexSameIds(a: seq<PathConfig>, b: seq<PathConfig>, id: string)
    requires |a| == |b| && forall i :: 0 <= i < |a| ==> a[i].path.id == b[i].path.id
    ensures PathIndex(a, id) == PathIndex(b, id)
    decreases |a|
  {
    if |a| > 0 && a[0].path.id != id {
      PathIndexSameIds(a[1..], b[1..], id);
    }
  }

  /** Linking the unlinked record that the lookup of its own ID finds keeps
      every linked record, and marks that record linked when it succeeds. */
  lemma EffectKeepsLinked(paths: seq<PathConfig>, i: nat, c: Created)
    requires i < |paths| && PathIndex(paths, paths[i].path.id) == Some(i) && !paths[i].path.isLinked
    requires LinkEffect(paths, paths[i], c)
    ensures KeepsLinked(paths, c.paths)
    ensures c.status.Linked? ==> c.paths[i].path.isLinked
  {
  }

  /** A round of the first loop on a name whose record is linked already:
      the name goes to the already-linked bucket and the rest of the request
      runs on the same path list. */
  lemma LinkStepsAlready(create: Linker, paths: seq<PathConfig>, names: seq<string>)
    requires |names| > 0 && PathIndex(paths, names[0]).Some?
    requires paths[PathIndex(paths, names[0]).value].path.isLinked
    ensures var r := LinkSteps(create, paths, names);
      var rest := LinkSteps(create, paths, names[1..]);
      && r.paths == rest.paths
      && (rest.outcome.Failure? ==> r.outcome == rest.outcome)
      && (rest.outcome.Success? ==>
            r.outcome == Success(Progress([names[0]] + rest.outcome.value.alreadyLinked, rest.outcome.value.results)))
  {
  }

  /** A round of the first loop on a name whose unlinked record the linker
      handled: its status is recorded and the rest of the request runs on
      the path list the linker left. */
  lemma LinkStepsCreated(create: Linker, paths: seq<PathConfig>, names: seq<string>)
    requires |names| > 0 && PathIndex(paths, names[0]).Some?
    requires !paths[PathIndex(paths, names[0]).value].path.isLinked
    requires create(paths, paths[PathIndex(paths, names[0]).value]).Success?
    ensures var r := LinkSteps(create, paths, names);
      var created := create(paths, paths[PathIndex(paths, names[0]).value]).value;
      var rest := LinkSteps(create, created.paths, names[1..]);
      && r.paths == rest.paths
      && (rest.outcome.Failure? ==> r.outcome == rest.outcome)
      && (rest.outcome.Success? ==>
            r.outcome == Success(Progress(rest.outcome.value.alreadyLinked, [created.status] + rest.outcome.value.results)))
  {
  }

  /** The first loop keeps every route and every linked record, whatever
      happens. */
  lemma {:induction false} LinkStepsKeepsRoutes(create: Linker, paths: seq<PathConfig>, names: seq<string>)
    requires LinkerOk(create)
    ensures SameRoutes(paths, LinkSteps(create, paths, names).paths)
    ensures KeepsLinked(paths, LinkSteps(create, paths, names).paths)
    decreases |names|
  {
    if |names| > 0 {
      match PathIndex(paths, names[0])
      case None =>
      case Some(i) =>
        if paths[i].path.isLinked {
          LinkStepsAlready(create, paths, names);
          LinkStepsKeepsRoutes(create, paths, names[1..]);
        } else if create(paths, paths[i]).Success? {
          LinkStepsCreated(create, paths, names);
          var created := create(paths, paths[i]).value;
          assert LinkEffect(paths, paths[i], created);
          EffectKeepsLinked(paths, i, created);
          LinkStepsKeepsRoutes(create, created.paths, names[1..]);
        }
    }
  }

  /** The exceptions that end the first loop: a requested name that no
      record carries (`createLink` of nothing), or one of `createLink`'s own
      exceptions. */
  predicate LoopFatal(paths: seq<PathConfig>, names: seq<string>, f: Fatal) {
    || (f.UnknownPath? && f.pathName in names && Unknown(paths, f.pathName))
    || CreateLinkFatal(f)
  }

  /** An exception of the rest of the loop, run on a path list with the same
      routes, is one of the whole loop's exceptions. */
  lemma LoopFatalSameRoutes(paths: seq<PathConfig>, later: seq<PathConfig>, names: seq<string>, f: Fatal)
    requires |names| > 0 && SameRoutes(paths, later) && LoopFatal(later, names[1..], f)
    ensures LoopFatal(paths, names, f)
  {
    if f.UnknownPath? {
      assert f.pathName in names;
      forall j | 0 <= j < |paths|
        ensures paths[j].path.id != f.pathName
      {
        assert SameRoute(paths[j], later[j]);
      }
    }
  }

  /** The first loop ends early only with one of its own exceptions. */
  lemma {:induction false} LinkStepsFatal(create: Linker, paths: seq<PathConfig>, names: seq<string>)
    requires LinkerOk(create)
    ensures var r := LinkSteps(create, paths, names);
      r.outcome.Failure? ==> LoopFatal(paths, names, r.outcome.error)
    decreases |names|
  {
    if |names| > 0 {
      match PathIndex(paths, names[0])
      case None =>
      case Some(i) =>
        var rest := names[1..];
        if paths[i].path.isLinked {
          LinkStepsAlready(create, paths, names);
          LinkStepsFatal(create, paths, rest);
          var r := LinkSteps(create, paths, rest);
          if r.outcome.Failure? {
            LoopFatalSameRoutes(paths, paths, names, r.outcome.error);
          }
        } else if create(paths, paths[i]).Success? {
          LinkStepsCreated(create, paths, names);
          var created := create(paths, paths[i]).value;
          assert LinkEffect(paths, paths[i], created);
          LinkStepsFatal(create, created.paths, rest);
          var r := LinkSteps(create, created.paths, rest);
          if r.outcome.Failure? {
            LoopFatalSameRoutes(paths, created.paths, names, r.outcome.error);
          }
        } else {
          assert CreateLinkFatal(create(paths, paths[i]).error);
        }
    }
  }

  /** `already` and the statuses in `results` split `names`: as multisets
      `names` is the union of the three buckets they give, and each bucket
      keeps the order of `names`. */
  predicate Buckets(names: seq<string>, already: seq<string>, results: seq<LinkStatus>) {
    && multiset(names) == multiset(already) + multiset(LinkedNames(results))
                          + multiset(FailedNames(FailedEntries(results)))
    && IsSubsequence(already, names)
    && IsSubsequence(LinkedNames(results), names)
    && IsSubsequence(FailedNames(FailedEntries(results)), names)
  }

  lemma BucketsAlready(names: seq<string>, already: seq<string>, results: seq<LinkStatus>)
    requires |names| > 0 && Buckets(names[1..], already, results)
    ensures Buckets(names, [names[0]] + already, results)
  {
    var name := names[0];
    assert names == [name] + names[1..];
    SubsequenceTake(name, already, names[1..]);
    SubsequenceSkip(name, LinkedNames(results), names[1..]);
    SubsequenceSkip(name, FailedNames(FailedEntries(results)), names[1..]);
  }

  lemma BucketsStatus(status: LinkStatus, names: seq<string>, already: seq<string>, results: seq<LinkStatus>)
    requires |names| > 0 && status.pathName == names[0] && Buckets(names[1..], already, results)
    ensures Buckets(names, already, [status] + results)
  {
    var name := status.pathName;
    assert names == [name] + names[1..];
    var all := [status] + results;
    assert all[1..] == results;
    SubsequenceSkip(name, already, names[1..]);
    if status.Linked? {
      assert LinkedNames(all) == [name] + LinkedNames(results);
      assert FailedEntries(all) == FailedEntries(results);
      SubsequenceTake(name, LinkedNames(results), names[1..]);
      SubsequenceSkip(name, FailedNames(FailedEntries(results)), names[1..]);
    } else {
      assert LinkedNames(all) == LinkedNames(results);
      var entry := LinkError(name, status.error);
      assert FailedEntries(all) == [entry] + FailedEntries(results);
      assert FailedNames([entry] + FailedEntries(results)) == [name] + FailedNames(FailedEntries(results)) by {
        assert ([entry] + FailedEntries(results))[1..] == FailedEntries(results);
      }
      SubsequenceSkip(name, LinkedNames(results), names[1..]);
      SubsequenceTake(name, FailedNames(FailedEntries(results)), names[1..]);
    }
  }

  /** Every requested name is answered exactly once: it lands in exactly one
      of the three buckets, and each bucket keeps the order of the request. */
  lemma {:induction false} LinkStepsBuckets(create: Linker, paths: seq<PathConfig>, names: seq<string>)
    requires LinkerOk(create)
    requires LinkSteps(create, paths, names).outcome.Success?
    ensures var p := LinkSteps(create, paths, names).outcome.value;
      Buckets(names, p.alreadyLinked, p.results)
    decreases |names|
  {
    if |names| == 0 {
      return;
    }
    var i := PathIndex(paths, names[0]).value;
    if paths[i].path.isLinked {
      LinkStepsAlready(create, paths, names);
      LinkStepsBuckets(create, paths, names[1..]);
      var p := LinkSteps(create, paths, names[1..]).outcome.value;
      BucketsAlready(names, p.alreadyLinked, p.results);
    } else {
      LinkStepsCreated(create, paths, names);
      var created := create(paths, paths[i]).value;
      assert LinkEffect(paths, paths[i], created);
      LinkStepsBuckets(create, created.paths, names[1..]);
      var p := LinkSteps(create, created.paths, names[1..]).outcome.value;
      BucketsStatus(created.status, names, p.alreadyLinked, p.results);
    }
  }

  /** Every name a successful loop reports as linked or already linked
      names a linked record in the path list it leaves behind. */
  predicate ReportsLinked(r: Steps) {
    r.outcome.Success? ==>
      forall n :: n in r.outcome.value.alreadyLinked + LinkedNames(r.outcome.value.results) ==> IsLinkedIn(r.paths, n)
  }

  lemma ReportsLinkedAlready(paths: seq<PathConfig>, name: string, rest: Steps)
    requires PathIndex(paths, name).Some? && paths[PathIndex(paths, name).value].path.isLinked
    requires rest.outcome.Success? && ReportsLinked(rest)
    requires SameRoutes(paths, rest.paths) && KeepsLinked(paths, rest.paths)
    ensures ReportsLinked(Steps(Success(Progress([name] + rest.outcome.value.alreadyLinked, rest.outcome.value.results)), rest.paths))
  {
    PathIndexSameIds(paths, rest.paths, name);
    assert IsLinkedIn(rest.paths, name);
  }

  lemma ReportsLinkedCreated(paths: seq<PathConfig>, name: string, created: Created, rest: Steps)
    requires PathIndex(paths, name).Some? && !paths[PathIndex(paths, name).value].path.isLinked
    requires LinkEffect(paths, paths[PathIndex(paths, name).value], created)
    requires rest.outcome.Success? && ReportsLinked(rest)
    requires SameRoutes(created.paths, rest.paths) && KeepsLinked(created.paths, rest.paths)
    ensures ReportsLinked(Steps(Success(Progress(rest.outcome.value.alreadyLinked, [created.status] + rest.outcome.value.results)), rest.paths))
  {
    var i := PathIndex(paths, name).value;
    var p := rest.outcome.value;
    var results := [created.status] + p.results;
    assert results[1..] == p.results;
    if created.status.Linked? {
      assert LinkedNames(results) == [name] + LinkedNames(p.results);
      EffectKeepsLinked(paths, i, created);
      PathIndexSameIds(paths, created.paths, name);
      PathIndexSameIds(created.paths, rest.paths, name);
      assert IsLinkedIn(rest.paths, name);
    } else {
      assert LinkedNames(results) == LinkedNames(p.results);
    }
  }

  /** Every name the first loop reports as linked or already linked names a
      linked record in the path list it leaves behind. */
  lemma {:induction false} LinkStepsLinksReported(create: Linker, paths: seq<PathConfig>, names: seq<string>)
    requires LinkerOk(create)
    ensures ReportsLinked(LinkSteps(create, paths, names))
    decreases |names|
  {
    if |names| == 0 || PathIndex(paths, names[0]).None? {
      return;
    }
    var i := PathIndex(paths, names[0]).value;
    if paths[i].path.isLinked {
      LinkStepsAlready(create, paths, names);
      LinkStepsLinksReported(create, paths, names[1..]);
      LinkStepsKeepsRoutes(create, paths, names[1..]);
      var rest := LinkSteps(create, paths, names[1..]);
      if rest.outcome.Success? {
        ReportsLinkedAlready(paths, names[0], rest);
      }
    } else if create(paths, paths[i]).Success? {
      LinkStepsCreated(create, paths, names);
      var created := create(paths, paths[i]).value;
      assert LinkEffect(paths, paths[i], created);
      LinkStepsLinksReported(create, created.paths, names[1..]);
      LinkStepsKeepsRoutes(create, created.paths, names[1..]);
      var rest := LinkSteps(create, created.paths, names[1..]);
      if rest.outcome.Success? {
        ReportsLinkedCreated(paths, names[0], created, rest);
      }
    }
  }

  /** `createLink` was run for `n`: a status under its name was recorded. */
  predicate Answered(results: seq<LinkStatus>, n: string) {
    n in LinkedNames(results) + FailedNames(FailedEntries(results))
  }

  /** Which bucket each requested name lands in: a name whose record is
      linked beforehand is reported as already linked and never handed to
      `createLink`; every other name is handed to `createLink` and ends up
      in the linked or the failed bucket; no unrequested name is answered. */
  ghost predicate Classified(paths: seq<PathConfig>, names: seq<string>, p: Progress) {
    && (forall n :: n in names && IsLinkedIn(paths, n) ==> n in p.alreadyLinked && !Answered(p.results, n))
    && (forall n :: n in names && !IsLinkedIn(paths, n) ==> Answered(p.results, n))
    && (forall n :: Answered(p.results, n) ==> n in names)
  }

  /** Linking the record of `paths[i]` changes no other path's linked state. */
  lemma EffectKeepsOthers(paths: seq<PathConfig>, i: nat, c: Created, n: string)
    requires i < |paths| && PathIndex(paths, paths[i].path.id) == Some(i)
    requires LinkEffect(paths, paths[i], c) && n != paths[i].path.id
    ensures IsLinkedIn(c.paths, n) == IsLinkedIn(paths, n)
  {
    PathIndexSameIds(paths, c.paths, n);
    if PathIndex(paths, n).Some? {
      var k := PathIndex(paths, n).value;
      assert k != i;
      if c.status.Linked? {
        assert c.paths[k] == paths[k];
      }
    }
  }

  lemma ClassifiedAlready(paths: seq<PathConfig>, names: seq<string>, rest: Progress)
    requires |names| > 0 && IsLinkedIn(paths, names[0])
    requires Classified(paths, names[1..], rest)
    ensures Classified(paths, names, Progress([names[0]] + rest.alreadyLinked, rest.results))
  {
    forall n | n in names
      ensures n == names[0] || n in names[1..]
    {
      assert names == [names[0]] + names[1..];
    }
  }

  lemma ClassifiedCreated(paths: seq<PathConfig>, names: seq<string>, created: Created, rest: Progress)
    requires |names| > 0 && PathIndex(paths, names[0]).Some?
    requires !paths[PathIndex(paths, names[0]).value].path.isLinked
    requires LinkEffect(paths, paths[PathIndex(paths, names[0]).value], created)
    requires Classified(created.paths, names[1..], rest)
    ensures Classified(paths, names, Progress(rest.alreadyLinked, [created.status] + rest.results))
  {
    var name := names[0];
    var i := PathIndex(paths, name).value;
    var results := [created.status] + rest.results;
    assert results[1..] == rest.results;
    assert LinkedNames(results) == (if created.status.Linked? then [name] else []) + LinkedNames(rest.results);
    if created.status.NotLinked? {
      var entry := LinkError(name, created.status.error);
      assert FailedEntries(results) == [entry] + FailedEntries(rest.results);
      assert ([entry] + FailedEntries(rest.results))[1..] == FailedEntries(rest.results);
      assert FailedNames(FailedEntries(results)) == [name] + FailedNames(FailedEntries(rest.results));
    } else {
      assert FailedEntries(results) == FailedEntries(rest.results);
    }
    assert forall n :: Answered(results, n) <==> n == name || Answered(rest.results, n);
    forall n | n in names
      ensures n == name || n in names[1..]
    {
      assert names == [name] + names[1..];
    }
    forall n | n in names && n != name
      ensures IsLinkedIn(created.paths, n) == IsLinkedIn(paths, n)
    {
      EffectKeepsOthers(paths, i, created, n);
    }
  }

  /** The first loop sorts every requested name by the state of its record
      before the call. */
  lemma {:induction false} LinkStepsClassifies(create: Linker, paths: seq<PathConfig>, names: seq<string>)
    requires LinkerOk(create)
    requires LinkSteps(create, paths, names).outcome.Success?
    ensures Classified(paths, names, LinkSteps(create, paths, names).outcome.value)
    decreases |names|
  {
    if |names| == 0 {
      return;
    }
    var i := PathIndex(paths, names[0]).value;
    if paths[i].path.isLinked {
      LinkStepsAlready(create, paths, names);
      LinkStepsClassifies(create, paths, names[1..]);
      ClassifiedAlready(paths, names, LinkSteps(create, paths, names[1..]).outcome.value);
    } else {
      LinkStepsCreated(create, paths, names);
      var created := create(paths, paths[i]).value;
      assert LinkEffect(paths, paths[i], created);
      LinkStepsClassifies(create, created.paths, names[1..]);
      ClassifiedCreated(paths, names, created, LinkSteps(create, created.paths, names[1..]).outcome.value);
    }
  }

  /** `create` reads the path list only through the lookup of the record's
      own ID: two lists in which that lookup finds the same position get the
      same answer and the same status. */
  ghost predicate LinkerLocal(create: Linker) {
    forall p1: seq<PathConfig>, p2: seq<PathConfig>, pc: PathConfig :: LocalAt(create, p1, p2, pc)
  }

  /** `create` answers `pc` alike in `p1` and `p2` when the lookup of its ID
      finds the same position in both. */
  predicate LocalAt(create: Linker, p1: seq<PathConfig>, p2: seq<PathConfig>, pc: PathConfig) {
    PathIndex(p1, pc.path.id) == PathIndex(p2, pc.path.id) ==>
      && create(p1, pc).Success? == create(p2, pc).Success?
      && (create(p1, pc).Success? ==> create(p1, pc).value.status == create(p2, pc).value.status)
  }

  /** The statuses after one more status in front. */
  lemma StatusesCons(status: LinkStatus, results: seq<LinkStatus>)
    ensures LinkedNames([status] + results) == (if status.Linked? then [status.pathName] else []) + LinkedNames(results)
    ensures FailedEntries([status] + results)
            == (if status.NotLinked? then [LinkError(status.pathName, status.error)] else []) + FailedEntries(results)
  {
    assert ([status] + results)[1..] == results;
  }

  /** A run of the first loop over names other than `n` leaves the record
      `n` finds where it was and as it was. */
  lemma {:induction false} LinkStepsKeepsOthers(create: Linker, paths: seq<PathConfig>, names: seq<string>, n: string)
    requires LinkerOk(create)
    requires n !in names && PathIndex(paths, n).Some?
    ensures var after := LinkSteps(create, paths, names).paths;
      && SameRoutes(paths, after)
      && PathIndex(after, n) == PathIndex(paths, n)
      && after[PathIndex(paths, n).value] == paths[PathIndex(paths, n).value]
    decreases |names|
  {
    LinkStepsKeepsRoutes(create, paths, names);
    if |names| == 0 || PathIndex(paths, names[0]).None? {
      return;
    }
    var k := PathIndex(paths, n).value;
    var i := PathIndex(paths, names[0]).value;
    assert names[0] != n && i != k;
    if paths[i].path.isLinked {
      LinkStepsAlready(create, paths, names);
      LinkStepsKeepsOthers(create, paths, names[1..], n);
    } else if create(paths, paths[i]).Success? {
      LinkStepsCreated(create, paths, names);
      var created := create(paths, paths[i]).value;
      assert LinkEffect(paths, paths[i], created);
      assert created.paths[k] == paths[k];
      PathIndexSameIds(paths, created.paths, n);
      LinkStepsKeepsOthers(create, created.paths, names[1..], n);
    }
  }

  /** For a requested name that appears once and whose record is not linked
      beforehand, the status the linker gives it on the path list the loop
      starts from decides its bucket: a link puts it among the linked names
      and leaves its record linked; a failure puts it among the failures
      with that error and leaves its record unlinked. */
  lemma {:induction false} LinkStepsReportsStatus(create: Linker, paths: seq<PathConfig>, names: seq<string>, n: string)
    requires LinkerOk(create) && LinkerLocal(create)
    requires LinkSteps(create, paths, names).outcome.Success?
    requires multiset(names)[n] == 1 && !IsLinkedIn(paths, n)
    ensures PathIndex(paths, n).Some?
    ensures create(paths, paths[PathIndex(paths, n).value]).Success?
    ensures var status := create(paths, paths[PathIndex(paths, n).value]).value.status;
      var r := LinkSteps(create, paths, names);
      && (status.Linked? ==> n in LinkedNames(r.outcome.value.results) && IsLinkedIn(r.paths, n))
      && (status.NotLinked? ==>
            LinkError(n, status.error) in FailedEntries(r.outcome.value.results) && !IsLinkedIn(r.paths, n))
    decreases |names|
  {
    assert names == [names[0]] + names[1..];
    var i := PathIndex(paths, names[0]).value;
    if names[0] == n {
      assert n !in names[1..];
      LinkStepsCreated(create, paths, names);
      var created := create(paths, paths[i]).value;
      assert LinkEffect(paths, paths[i], created);
      PathIndexSameIds(paths, created.paths, n);
      LinkStepsKeepsOthers(create, created.paths, names[1..], n);
      StatusesCons(created.status, LinkSteps(create, created.paths, names[1..]).outcome.value.results);
    } else if paths[i].path.isLinked {
      LinkStepsAlready(create, paths, names);
      LinkStepsReportsStatus(create, paths, names[1..], n);
    } else {
      LinkStepsCreated(create, paths, names);
      var created := create(paths, paths[i]).value;
      assert LinkEffect(paths, paths[i], created);
      PathIndexSameIds(paths, created.paths, n);
      EffectKeepsOthers(paths, i, created, n);
      LinkStepsReportsStatus(create, created.paths, names[1..], n);
      var k := PathIndex(paths, n).value;
      assert created.paths[k] == paths[k];
      assert LocalAt(create, paths, created.paths, paths[k]);
      StatusesCons(created.status, LinkSteps(create, created.paths, names[1..]).outcome.value.results);
    }
  }

  /** When every requested name already names a linked record, the first loop
      puts them all in the already-linked bucket and changes nothing. */
  lemma {:induction false} LinkStepsAllLinked(create: Linker, paths: seq<PathConfig>, names: seq<string>)
    requires forall n :: n in names ==> IsLinkedIn(paths, n)
    ensures LinkSteps(create, paths, names) == Steps(Success(Progress(names, [])), paths)
    decreases |names|
  {
    if |names| > 0 {
      assert names[0] in names;
      LinkStepsAllLinked(create, paths, names[1..]);
      assert [names[0]] + names[1..] == names;
    }
  }

  /** The linker never throws for a record that is `Ready`. */
  ghost predicate NeverFatalOn(create: Linker, e: Engine, chains: Option<seq<ChainConfig>>) {
    forall paths, pc :: Ready(e, chains, pc) ==> create(paths, pc).Success?
  }

  /** The record's chains are registered, their gas prices parse, their
      balance queries answer and an IBC client can be built for each:
      nothing `createLink` does outside its `try` block can throw. */
  predicate Ready(e: Engine, chains: Option<seq<ChainConfig>>, pc: PathConfig) {
    && ChainById(chains, pc.path.src.chainId).Some?
    && ChainById(chains, pc.path.dst.chainId).Some?
    && ReadyChain(e, ChainById(chains, pc.path.src.chainId).value)
    && ReadyChain(e, ChainById(chains, pc.path.dst.chainId).value)
  }

  /** Neither the gas-price parse, the balance query nor the client of the
      chain throws. */
  predicate ReadyChain(e: Engine, chain: ChainConfig) {
    e.gasPriceOk(chain.gasPrice) && e.balance(chain).Success? && e.clientOk(chain)
  }

  /** Every requested name has a record, and every such record is ready. */
  predicate Resolvable(e: Engine, chains: Option<seq<ChainConfig>>, paths: seq<PathConfig>, names: seq<string>) {
    forall n :: n in names ==> PathIndex(paths, n).Some? && Ready(e, chains, paths[PathIndex(paths, n).value])
  }

  lemma CreateLinkerNeverFatal(e: Engine, chains: Option<seq<ChainConfig>>)
    ensures NeverFatalOn(CreateLinker(e, chains), e, chains)
  {
    var create := CreateLinker(e, chains);
    forall paths, pc | Ready(e, chains, pc)
      ensures create(paths, pc).Success?
    {
      assert create(paths, pc) == CreateLink(e, chains, paths, pc);
    }
  }

  /** Resolvability depends only on the routes, which linking keeps. */
  lemma ResolvableSameRoutes(e: Engine, chains: Option<seq<ChainConfig>>, a: seq<PathConfig>, b: seq<PathConfig>, names: seq<string>)
    requires SameRoutes(a, b) && Resolvable(e, chains, a, names)
    ensures Resolvable(e, chains, b, names)
  {
    forall n | n in names
      ensures PathIndex(b, n).Some? && Ready(e, chains, b[PathIndex(b, n).value])
    {
      PathIndexSameIds(a, b, n);
      var i := PathIndex(a, n).value;
      assert SameRoute(a[i], b[i]);
    }
  }

  /** When every requested path resolves, the first loop never aborts:
      balance shortfalls and handshake errors stay per-path failures. */
  lemma {:induction false} LinkStepsResolvableSucceeds(create: Linker, e: Engine, chains: Option<seq<ChainConfig>>, paths: seq<PathConfig>, names: seq<string>)
    requires LinkerOk(create) && NeverFatalOn(create, e, chains)
    requires Resolvable(e, chains, paths, names)
    ensures LinkSteps(create, paths, names).outcome.Success?
    decreases |names|
  {
    if |names| == 0 {
      return;
    }
    var name := names[0];
    assert name in names;
    var i := PathIndex(paths, name).value;
    assert Resolvable(e, chains, paths, names[1..]) by {
      forall n | n in names[1..] ensures n in names { }
    }
    if paths[i].path.isLinked {
      LinkStepsAlready(create, paths, names);
      LinkStepsResolvableSucceeds(create, e, chains, paths, names[1..]);
    } else {
      assert create(paths, paths[i]).Success?;
      LinkStepsCreated(create, paths, names);
      var created := create(paths, paths[i]).value;
      assert LinkEffect(paths, paths[i], created);
      ResolvableSameRoutes(e, chains, paths, created.paths, names[1..]);
      LinkStepsResolvableSucceeds(create, e, chains, created.paths, names[1..]);
    }
  }

  // ---------------------------------------------------------------------------
  // Properties of link

  /** `link`'s buckets partition the request: as multisets the request is the
      union of the three buckets, and each bucket lists its names in request
      order. */
  lemma LinkBuckets(e: Engine, cfg: RelayerConfig, names: seq<string>)
    requires Link(e, cfg, names).outcome.Success?
    ensures var resp := Link(e, cfg, names).outcome.value;
      && multiset(names) == multiset(resp.linkedPaths) + multiset(resp.alreadyLinkedPaths)
                            + multiset(FailedNames(resp.failedToLinkPaths))
      && IsSubsequence(resp.linkedPaths, names)
      && IsSubsequence(resp.alreadyLinkedPaths, names)
      && IsSubsequence(FailedNames(resp.failedToLinkPaths), names)
  {
    CreateLinkerOk(e, cfg.chains);
    LinkStepsBuckets(CreateLinker(e, cfg.chains), cfg.paths.value, names);
  }

  /** Which bucket each requested name lands in: a name whose record was
      linked before the call is reported as already linked, and in neither
      other bucket, since `createLink` never runs for it; a name whose record
      was not linked is handed to `createLink` and reported as linked or
      failed; nothing unrequested is linked or failed. */
  lemma LinkClassifies(e: Engine, cfg: RelayerConfig, names: seq<string>)
    requires Link(e, cfg, names).outcome.Success?
    ensures var resp := Link(e, cfg, names).outcome.value;
      var paths := cfg.paths.value;
      && (forall n :: n in names && IsLinkedIn(paths, n) ==>
            n in resp.alreadyLinkedPaths && n !in resp.linkedPaths && n !in FailedNames(resp.failedToLinkPaths))
      && (forall n :: n in names && !IsLinkedIn(paths, n) ==>
            n in resp.linkedPaths || n in FailedNames(resp.failedToLinkPaths))
      && (forall n :: n in resp.linkedPaths || n in FailedNames(resp.failedToLinkPaths) ==> n in names)
  {
    CreateLinkerOk(e, cfg.chains);
    LinkStepsClassifies(CreateLinker(e, cfg.chains), cfg.paths.value, names);
  }

  /** `createLink` reads the path list only to find the record to update. */
  lemma CreateLinkerLocal(e: Engine, chains: Option<seq<ChainConfig>>)
    ensures LinkerLocal(CreateLinker(e, chains))
  {
    var create := CreateLinker(e, chains);
    forall p1: seq<PathConfig>, p2: seq<PathConfig>, pc: PathConfig
      ensures LocalAt(create, p1, p2, pc)
    {
      CreateLinkLocal(e, chains, p1, p2, pc);
    }
  }

  /** `createLink` gets past every check and both handshakes, up to the
      lookup of the record to update. */
  predicate ReachesLookup(e: Engine, chains: Option<seq<ChainConfig>>, pc: PathConfig) {
    var chainA := ChainById(chains, pc.path.src.chainId);
    var chainB := ChainById(chains, pc.path.dst.chainId);
    && chainA.Some? && chainB.Some? && e.gasPriceOk(chainA.value.gasPrice)
    && BalanceCheck(e, chainA.value) == Success(true) && BalanceCheck(e, chainB.value) == Success(true)
    && e.clientOk(chainA.value) && e.clientOk(chainB.value)
    && e.connect(chainA.value, chainB.value).Success? && pc.options.Some?
    && e.createChannel(chainA.value, chainB.value, pc.options.value).Success?
  }

  lemma CreateLinkLocal(e: Engine, chains: Option<seq<ChainConfig>>, p1: seq<PathConfig>, p2: seq<PathConfig>, pc: PathConfig)
    ensures LocalAt(CreateLinker(e, chains), p1, p2, pc)
  {
    assert CreateLinker(e, chains)(p1, pc) == CreateLink(e, chains, p1, pc);
    assert CreateLinker(e, chains)(p2, pc) == CreateLink(e, chains, p2, pc);
    if PathIndex(p1, pc.path.id) != PathIndex(p2, pc.path.id) {
    } else if ReachesLookup(e, chains, pc) {
      CreateLinkLookup(e, chains, p1, pc);
      CreateLinkLookup(e, chains, p2, pc);
    } else {
      CreateLinkBeforeLookup(e, chains, p1, p2, pc);
    }
  }

  /** Before the lookup, `createLink`'s answer does not depend on the list. */
  lemma CreateLinkBeforeLookup(e: Engine, chains: Option<seq<ChainConfig>>, p1: seq<PathConfig>, p2: seq<PathConfig>, pc: PathConfig)
    requires !ReachesLookup(e, chains, pc)
    ensures CreateLink(e, chains, p1, pc).Success? == CreateLink(e, chains, p2, pc).Success?
    ensures CreateLink(e, chains, p1, pc).Success? ==>
              CreateLink(e, chains, p1, pc).value.status == CreateLink(e, chains, p2, pc).value.status
  {
  }

  /** After both handshakes, the lookup alone decides the status. */
  lemma CreateLinkLookup(e: Engine, chains: Option<seq<ChainConfig>>, paths: seq<PathConfig>, pc: PathConfig)
    requires ReachesLookup(e, chains, pc)
    ensures CreateLink(e, chains, paths, pc).Success?
    ensures CreateLink(e, chains, paths, pc).value.status
            == if PathIndex(paths, pc.path.id).Some? then Linked(pc.path.id) else NotLinked(pc.path.id, TypeError)
  {
  }

  /** Every failure entry's name is among the failed names. */
  lemma {:induction false} FailedNamesHas(failed: seq<LinkError>, entry: LinkError)
    requires entry in failed
    ensures entry.pathName in FailedNames(failed)
    decreases |failed|
  {
    if failed[0] != entry {
      FailedNamesHas(failed[1..], entry);
    }
  }

  /** The bucket of a requested name that appears once and whose record was
      not linked before the call is the one `createLink`'s status on the
      registry as it was dictates: a link puts it in `linkedPaths`, a
      failure puts it in `failedToLinkPaths` with that failure's error, and
      never both or the already-linked bucket. The linked bucket holds it
      exactly when its record is linked afterwards. */
  lemma LinkReportsStatus(e: Engine, cfg: RelayerConfig, names: seq<string>, n: string)
    requires Link(e, cfg, names).outcome.Success?
    requires multiset(names)[n] == 1 && !IsLinkedIn(cfg.paths.value, n)
    ensures PathIndex(cfg.paths.value, n).Some?
    ensures CreateLink(e, cfg.chains, cfg.paths.value, cfg.paths.value[PathIndex(cfg.paths.value, n).value]).Success?
    ensures var paths := cfg.paths.value;
      var status := CreateLink(e, cfg.chains, paths, paths[PathIndex(paths, n).value]).value.status;
      var r := Link(e, cfg, names);
      var resp := r.outcome.value;
      var after := r.config.paths.value;
      && (n in resp.linkedPaths <==> status.Linked?)
      && (status.NotLinked? ==> LinkError(n, status.error) in resp.failedToLinkPaths)
      && (n in resp.linkedPaths <==> IsLinkedIn(after, n))
      && (n in FailedNames(resp.failedToLinkPaths) <==> !IsLinkedIn(after, n))
      && n !in resp.alreadyLinkedPaths
  {
    var paths := cfg.paths.value;
    var create := CreateLinker(e, cfg.chains);
    CreateLinkerOk(e, cfg.chains);
    CreateLinkerLocal(e, cfg.chains);
    LinkStepsReportsStatus(create, paths, names, n);
    LinkStepsBuckets(create, paths, names);
    var pc := paths[PathIndex(paths, n).value];
    assert create(paths, pc) == CreateLink(e, cfg.chains, paths, pc);
    var status := create(paths, pc).value.status;
    var p := LinkSteps(create, paths, names).outcome.value;
    if status.NotLinked? {
      FailedNamesHas(FailedEntries(p.results), LinkError(n, status.error));
    }
  }

  /** Both chains of the record are ready and both have the funds. */
  predicate Funded(e: Engine, chains: Option<seq<ChainConfig>>, pc: PathConfig) {
    && Ready(e, chains, pc)
    && e.balance(ChainById(chains, pc.path.src.chainId).value) == Success(true)
    && e.balance(ChainById(chains, pc.path.dst.chainId).value) == Success(true)
  }

  /** The connection handshake between the record's two chains. */
  function Handshake(e: Engine, chains: Option<seq<ChainConfig>>, pc: PathConfig): Result<Connections, string>
    requires Ready(e, chains, pc)
  {
    e.connect(ChainById(chains, pc.path.src.chainId).value, ChainById(chains, pc.path.dst.chainId).value)
  }

  /** Three rounds of the first loop: a record that the linker links or
      fails, one it then fails without changing the list, and one linked
      already. */
  lemma ThreeSteps(create: Linker, paths: seq<PathConfig>, paths1: seq<PathConfig>,
                   p1: string, p2: string, p3: string, s1: LinkStatus, s2: LinkStatus)
    requires PathIndex(paths, p1).Some? && !paths[PathIndex(paths, p1).value].path.isLinked
    requires create(paths, paths[PathIndex(paths, p1).value]) == Success(Created(s1, paths1))
    requires PathIndex(paths1, p2).Some? && !paths1[PathIndex(paths1, p2).value].path.isLinked
    requires create(paths1, paths1[PathIndex(paths1, p2).value]) == Success(Created(s2, paths1))
    requires IsLinkedIn(paths1, p3)
    ensures LinkSteps(create, paths, [p1, p2, p3]) == Steps(Success(Progress([p3], [s1, s2])), paths1)
  {
    assert [p1, p2, p3][1..] == [p2, p3] && [p2, p3][1..] == [p3] && [p3][1..] == [];
    assert [p3] + [] == [p3] && [s2] + [] == [s2];
    assert LinkSteps(create, paths1, []) == Steps(Success(Progress([], [])), paths1);
    LinkStepsAlready(create, paths1, [p3]);
    assert LinkSteps(create, paths1, [p3]) == Steps(Success(Progress([p3], [])), paths1);
    LinkStepsCreated(create, paths1, [p2, p3]);
    assert LinkSteps(create, paths1, [p2, p3]) == Steps(Success(Progress([p3], [s2])), paths1);
    LinkStepsCreated(create, paths, [p1, p2, p3]);
    assert [s1] + [s2] == [s1, s2];
  }

  /** `link`'s answer once its first loop has completed. */
  lemma LinkAfterSteps(e: Engine, cfg: RelayerConfig, names: seq<string>, p: Progress, after: seq<PathConfig>)
    requires cfg.paths.Some? && LinkSteps(CreateLinker(e, cfg.chains), cfg.paths.value, names) == Steps(Success(p), after)
    ensures Link(e, cfg, names)
            == LinkRun(Success(LinkResponse(LinkedNames(p.results), p.alreadyLinked, FailedEntries(p.results))),
                       cfg.(paths := Some(after)))
  {
  }

  /** The buckets of one link followed by one failure. */
  lemma LinkedThenFailed(p1: string, p2: string, error: LinkFailure)
    ensures LinkedNames([Linked(p1), NotLinked(p2, error)]) == [p1]
    ensures FailedEntries([Linked(p1), NotLinked(p2, error)]) == [LinkError(p2, error)]
  {
    assert [Linked(p1), NotLinked(p2, error)] == [Linked(p1)] + [NotLinked(p2, error)];
    assert [NotLinked(p2, error)] == [NotLinked(p2, error)] + [];
    StatusesCons(Linked(p1), [NotLinked(p2, error)]);
    StatusesCons(NotLinked(p2, error), []);
  }

  /** Partial failure stays isolated: with `p1` able to link, `p2`'s
      connection handshake failing with `m` and `p3` linked already,
      `link([p1, p2, p3])` reports `p1` linked, `p3` already linked and `p2`
      failed with `m`, goes on past the failure, and leaves `p1` and `p3`
      linked and `p2` unlinked. */
  lemma PartialFailureIsolated(e: Engine, cfg: RelayerConfig, p1: string, p2: string, p3: string, m: string)
    requires cfg.paths.Some? && p1 != p2 && p2 != p3 && p1 != p3
    requires PathIndex(cfg.paths.value, p1).Some? && PathIndex(cfg.paths.value, p2).Some?
    requires PathIndex(cfg.paths.value, p3).Some?
    requires var rec := cfg.paths.value[PathIndex(cfg.paths.value, p1).value];
      && !rec.path.isLinked && Funded(e, cfg.chains, rec) && Handshake(e, cfg.chains, rec).Success? && rec.options.Some?
      && e.createChannel(ChainById(cfg.chains, rec.path.src.chainId).value,
                         ChainById(cfg.chains, rec.path.dst.chainId).value, rec.options.value).Success?
    requires var rec := cfg.paths.value[PathIndex(cfg.paths.value, p2).value];
      !rec.path.isLinked && Funded(e, cfg.chains, rec) && Handshake(e, cfg.chains, rec) == Failure(m)
    requires cfg.paths.value[PathIndex(cfg.paths.value, p3).value].path.isLinked
    ensures var r := Link(e, cfg, [p1, p2, p3]);
      && r.outcome == Success(LinkResponse([p1], [p3], [LinkError(p2, EngineError(m))]))
      && IsLinkedIn(r.config.paths.value, p1) && !IsLinkedIn(r.config.paths.value, p2)
      && IsLinkedIn(r.config.paths.value, p3)
  {
    var paths := cfg.paths.value;
    var create := CreateLinker(e, cfg.chains);
    var j1, j2, j3 := PathIndex(paths, p1).value, PathIndex(paths, p2).value, PathIndex(paths, p3).value;
    assert j1 != j2 && j1 != j3;
    // p1 links
    var rec1 := paths[j1];
    CreateLinkSucceeds(e, cfg.chains, paths, rec1);
    assert create(paths, rec1) == CreateLink(e, cfg.chains, paths, rec1);
    var paths1 := create(paths, rec1).value.paths;
    assert paths1 == paths[j1 := paths1[j1]] && paths1[j1].path.id == p1 && paths1[j1].path.isLinked;
    PathIndexSameIds(paths, paths1, p1);
    PathIndexSameIds(paths, paths1, p2);
    PathIndexSameIds(paths, paths1, p3);
    // p2 fails and changes nothing
    var rec2 := paths1[j2];
    assert rec2 == paths[j2];
    CreateLinkSucceeds(e, cfg.chains, paths1, rec2);
    assert create(paths1, rec2) == CreateLink(e, cfg.chains, paths1, rec2);
    // p3 is linked already
    assert paths1[j3] == paths[j3];
    ThreeSteps(create, paths, paths1, p1, p2, p3, Linked(p1), NotLinked(p2, EngineError(m)));
    LinkAfterSteps(e, cfg, [p1, p2, p3], Progress([p3], [Linked(p1), NotLinked(p2, EngineError(m))]), paths1);
    LinkedThenFailed(p1, p2, EngineError(m));
  }

  /** `link` throws only when the registry has no path list, when a
      requested name has no record, or with one of `createLink`'s own
      exceptions: a missing chain, a gas price that does not parse, a failed
      balance query or a client that cannot be built. */
  lemma LinkFatal(e: Engine, cfg: RelayerConfig, names: seq<string>)
    requires Link(e, cfg, names).outcome.Failure?
    ensures var f := Link(e, cfg, names).outcome.error;
      || (cfg.paths.None? && f == PathsNotDefined)
      || (cfg.paths.Some? && LoopFatal(cfg.paths.value, names, f))
  {
    if cfg.paths.Some? {
      CreateLinkerOk(e, cfg.chains);
      LinkStepsFatal(CreateLinker(e, cfg.chains), cfg.paths.value, names);
    }
  }

  /** Linking names that are all linked already is quiet: everything is
      reported as already linked and the registry stays as it was. */
  lemma LinkAllLinkedIsQuiet(e: Engine, cfg: RelayerConfig, names: seq<string>)
    requires cfg.paths.Some? && forall n :: n in names ==> IsLinkedIn(cfg.paths.value, n)
    ensures Link(e, cfg, names) == LinkRun(Success(LinkResponse([], names, [])), cfg)
  {
    LinkStepsAllLinked(CreateLinker(e, cfg.chains), cfg.paths.value, names);
  }

  /** `link` is idempotent on what it reports: linking again the names a
      successful `link` reported as linked or already linked, with any
      engine, reports them all as already linked and leaves the registry as
      the first call left it. */
  lemma LinkAgainIsQuiet(e: Engine, e2: Engine, cfg: RelayerConfig, names: seq<string>)
    requires Link(e, cfg, names).outcome.Success?
    ensures var first := Link(e, cfg, names);
      var again := first.outcome.value.linkedPaths + first.outcome.value.alreadyLinkedPaths;
      Link(e2, first.config, again) == LinkRun(Success(LinkResponse([], again, [])), first.config)
  {
    var create := CreateLinker(e, cfg.chains);
    CreateLinkerOk(e, cfg.chains);
    var steps := LinkSteps(create, cfg.paths.value, names);
    LinkStepsLinksReported(create, cfg.paths.value, names);
    assert ReportsLinked(steps);
    var first := Link(e, cfg, names);
    var again := first.outcome.value.linkedPaths + first.outcome.value.alreadyLinkedPaths;
    forall n | n in again
      ensures IsLinkedIn(steps.paths, n)
    {
      assert n in steps.outcome.value.alreadyLinked + LinkedNames(steps.outcome.value.results);
    }
    LinkAllLinkedIsQuiet(e2, first.config, again);
  }

  /** `link` on a registry with a path list and a resolvable request always
      returns its three buckets. */
  lemma LinkResolvableSucceeds(e: Engine, cfg: RelayerConfig, names: seq<string>)
    requires cfg.paths.Some? && Resolvable(e, cfg.chains, cfg.paths.value, names)
    ensures Link(e, cfg, names).outcome.Success?
  {
    CreateLinkerOk(e, cfg.chains);
    CreateLinkerNeverFatal(e, cfg.chains);
    LinkStepsResolvableSucceeds(CreateLinker(e, cfg.chains), e, cfg.chains, cfg.paths.value, names);
  }
}
